=== FILE: README.md ===
# PuppetDB exporter: the scrape cycle, modelled in Dafny

`prometheus-puppetdb-exporter` periodically asks PuppetDB for its nodes. For each node it sets
Prometheus gauges:

- a `report` gauge holding the Unix time of the node's latest report;
- one gauge per report metric, in the `report_<category>` collections.

After the node loop of each iteration it sets one `node_report_status_count` gauge per report
status, holding the number of credits the nodes earned for that status in the iteration.

A node whose timestamp parsed earns one credit for its status, or for `unreported` when its status
is empty. A stale node earns one extra `unreported`, so a stale node without a status adds 2 to
`unreported`. A never-reported node earns one `unreported`, and a node whose timestamp does not
parse earns nothing. This project models
the core of `internal/exporter/exporter.go`:

- **Collections.** `initGauges` creates the six gauge collections (`Registry.Collections`,
  `Exporter.Exporter.InitGauges`).
- **One iteration of the loop in `Scrape`.** Its pure specification is `ScrapeCycle.CycleOutcome`.
  The imperative body is `Exporter.Exporter.RunCycle`, which is proved to compute that
  specification. The body has these parts:
  - a fresh status tally;
  - the node loop (`ScrapeNodes`, `ScrapeNode`, `ScrapeReport`, `CountStatuses`,
    `SetReportMetrics`);
  - the status flush (`FlushStatuses`).
- **The loop itself.** It is modelled over a finite sequence of iterations (`ScrapeCycle.ScrapeOutcome`,
  `Exporter.Exporter.Scrape`). Each iteration gets the node list, the report metrics by hash and
  the current time. A threshold that does not parse makes `Scrape` return at once.
- **What the exporter relies on from Go's standard library.**
  - `time.Parse` with the layout `2006-01-02T15:04:05Z`, including its lenient corners. The hour
    may have one digit. A fractional second after the seconds (`.` or `,` then digits) is accepted,
    and its first nine digits are kept. The model assumes Go 1.20 or later: the comma is
    accepted since Go 1.17, and digits past the ninth are ignored since Go 1.20. The day is
    checked against the month's length.
  - `Time.Unix` and the nanosecond comparison of `Add`/`Before` (module `GoTime`).
  - `strings.Title` followed by `strings.ReplaceAll(…, "_", " ")` for report-metric label names
    (module `LabelNames`).

The Prometheus registry is modelled abstractly:

- It is a map from series (collection name plus label map) to value (`Registry.Gauges`).
- A `GaugeVec`'s `With(labels).Set(v)` is a write to that map.
- `With` on a label set that does not match the collection's label names panics, and so does the
  nil `*GaugeVec` of an unknown collection. Both are the predicate `Registry.Accepts` being false.
  The model returns `None` (or `panicked`) there.

The module `CycleScenario` works a two-node example through one cycle: node A reported at
`2024-01-01T00:00:00Z` with status `changed` and one `resources` metric `file`, and node B never
reported.

Times and durations are integers of nanoseconds. Gauge values are reals.

### Source behaviour the model follows

- **Title-casing and underscores.** `exporter.go:117` calls `strings.Title` *before*
  `strings.ReplaceAll(…, "_", " ")`. `_` is not a word separator for `strings.Title`, so
  `free_space` becomes `Free space` (`LabelNames.LabelNameFreeSpace`), and `free_space` and
  `Free_space` give the same label (`LabelNames.LabelNameCollision`).
- **Status collection name.** `exporter.go:133` and `exporter.go:123` key and name the status
  collection `node_report_status_count`, in the exporter's namespace `puppetdb`.
- **Bad threshold.** At `exporter.go:70-74` a threshold that does not parse is logged with
  `log.Errorf` (not `log.Fatalf`), and `Scrape` returns.
- **Report-metrics fetch error.** `exporter.go:114` discards the error of the report-metrics
  request. The node then contributes no report-metric gauges.
- **Unknown category.** At `exporter.go:116-117` a report metric whose category is not one of
  `resources`, `time`, `changes` or `events` looks up a collection that does not exist. The nil
  `*GaugeVec` is dereferenced and the goroutine panics (`CycleProperties.CyclePanicsIff`).

## Model

| member | source | states |
|---|---|---|
| Registry.Collections | internal/exporter/exporter.go:130-167 | `initGauges` creates exactly the status collection, the `report` collection and one `report_<category>` collection per known category |
| Registry.CollectionNames | internal/exporter/exporter.go:133-167 | every collection is named by its key; the status collection is in the exporter's namespace and all others in `puppet` |
| Registry.CollectionLabels | internal/exporter/exporter.go:137-167 | label names of each collection: `status` for statuses; `environment, host, deactivated` for `report`; `name, environment, host` for the four report-metric collections |
| Registry.CategoryCollectionKnown | internal/exporter/exporter.go:116 | `report_<category>` is a collection exactly when the category is one of the four known ones, and it never names the status or `report` collection |
| Registry.AllAcceptedAppend | internal/exporter/exporter.go:84-124 | a run of writes is free of panics exactly when both of its halves are |
| Registry.OverlayKeys | internal/exporter/exporter.go:101-123 | after a sequence of `Set` calls, the series present are exactly the series written |
| Registry.OverlayLastWriteWins | internal/exporter/exporter.go:101-123 | a series holds the value of the last `Set` on it |
| Registry.OverlayAppend | internal/exporter/exporter.go:84-124 | the writes of two consecutive runs compose by map override |
| Exporter.Exporter.constructor | internal/exporter/exporter.go:29-47 | the exporter gets the namespace `puppetdb`, the six collections and no series |
| Exporter.Exporter.InitGauges | internal/exporter/exporter.go:130-167 | after the six assignments the collections are exactly `Collections(namespace)`, each holding no series |
| GoTime.DaysIn | internal/exporter/exporter.go:96 | month lengths of the Gregorian calendar, 29 days in February of a leap year |
| GoTime.Fraction | internal/exporter/exporter.go:96 | a fractional second yields nanoseconds below one second and is consumed only after `.` or `,` followed by a digit |
| GoTime.LongYear | internal/exporter/exporter.go:96 | the layout's `2006` reads exactly four digits; their value is given by `GoTime.ParseReads` |
| GoTime.GetNum | internal/exporter/exporter.go:96 | a two-digit field of the layout reads one or two digits (two when the field is fixed) below 100 and consumes them; which digits and their value are given by `GoTime.GetNumReads` |
| GoTime.ParseClock | internal/exporter/exporter.go:96 | a parsed clock has hour below 24, minute and second below 60 and nanoseconds below one second; `GoTime.ParseClockReads` states that its fields are the text's digits and that the separators were checked |
| GoTime.Parse | internal/exporter/exporter.go:96 | every timestamp accepted with the layout `2006-01-02T15:04:05Z` is a valid calendar time (month, day within the month, hour, minute, second); `GoTime.ParseReads` states that its fields are the text's digits, and the `ParseRejects…` lemmas that out-of-range text is refused |
| GoTime.GetNumReads | internal/exporter/exporter.go:96 | an accepted two-digit field is the value of the one or two leading digits, two when the next character is a digit or the field is fixed, and the rest of the text follows them |
| GoTime.ParseClockReads | internal/exporter/exporter.go:96 | an accepted clock is `hh:mm:ss` (the hour one or two digits) then an optional fraction then `Z`, and hour, minute, second and nanoseconds are the values of those digits |
| GoTime.ParseReads | internal/exporter/exporter.go:96 | an accepted timestamp is four digits, `-`, two digits, `-`, two digits, `T` and an accepted clock, and year, month, day and clock fields are the values of those digits |
| GoTime.ParseChecksDate | internal/exporter/exporter.go:96 | an accepted timestamp has its separators in place, a month from 1 to 12 and a day from 1 to the month's length in that year |
| GoTime.ParseChecksClock | internal/exporter/exporter.go:96 | an accepted timestamp has an accepted clock with hour below 24 and minute and second below 60 |
| GoTime.ParseRejectsDayPastMonth | internal/exporter/exporter.go:96 | a timestamp whose day is past the end of its month is refused |
| GoTime.ParseRejectsFebruary29In2023 | internal/exporter/exporter.go:96 | `2023-02-29T00:00:00Z` is refused, 2023 not being a leap year |
| GoTime.ParseRejectsMonth13 | internal/exporter/exporter.go:96 | `2024-13-01T00:00:00Z` is refused |
| GoTime.ParseRejectsHourPast23 | internal/exporter/exporter.go:96 | a timestamp whose hour digits are 24 or more is refused |
| GoTime.ParseRejectsHour24 | internal/exporter/exporter.go:96 | `2024-01-01T24:00:00Z` is refused |
| GoTime.ParseRejectsSpaceSeparator | internal/exporter/exporter.go:96 | `2024-01-01 00:00:00Z`, with a space for the `T`, is refused |
| GoTime.ParseFormat | internal/exporter/exporter.go:96 | formatting any valid time in the layout and parsing it back gives the same time to the second |
| GoTime.ParseClockOneDigitHour | internal/exporter/exporter.go:96 | the layout's hour also accepts a single digit |
| GoTime.ParseClockFractionalSecond | internal/exporter/exporter.go:96 | a fractional second after the seconds is accepted, and its first nine digits give the nanoseconds |
| GoTime.ParseNewYear2024 | internal/exporter/exporter.go:96-101 | `2024-01-01T00:00:00Z` parses to that instant, whose Unix time is 1704067200 |
| GoTime.Unix | internal/exporter/exporter.go:101 | `Time.Unix`: the seconds from `1970-01-01T00:00:00Z` to a valid time, counting every day of the earlier years; its properties are stated by `GoTime.UnixEpoch`, `GoTime.DaysBeforeYearCountsYears` and `GoTime.UnixOrder` |
| GoTime.UnixEpoch | internal/exporter/exporter.go:101 | `1970-01-01T00:00:00Z` has Unix time 0 |
| GoTime.DaysBeforeYearCountsYears | internal/exporter/exporter.go:101 | the closed form used for Unix time counts exactly the days of all earlier years, leap years included |
| GoTime.EarlierIsSmaller | internal/exporter/exporter.go:101-103 | an earlier calendar second has a smaller Unix time |
| GoTime.UnixOrder | internal/exporter/exporter.go:101-103 | Unix times compare exactly as the calendar fields do, and two times have the same Unix time exactly when they agree to the second |
| LabelNames.IsSeparator | internal/exporter/exporter.go:117 | the word boundary of `strings.Title`: any ASCII character but letters, digits and `_`, and white space beyond ASCII; it decides which characters `LabelNames.LabelNameAt` upper-cases |
| LabelNames.Title | internal/exporter/exporter.go:117 | `strings.Title`: upper-cases each character that follows a separator or starts the text; its effect per character is stated by `LabelNames.LabelNameAt` |
| LabelNames.ReplaceAllChar | internal/exporter/exporter.go:117 | `strings.ReplaceAll` with one-character strings, scanning left to right: the result has the text's length, and each character is the replacement where the text had the old character and the text's own character elsewhere |
| LabelNames.LabelName | internal/exporter/exporter.go:117 | the `name` label of a report-metric gauge, title-casing then replacing `_` by a space; its properties are stated by `LabelNames.LabelNameAt` and `LabelNames.LabelNameHasNoUnderscore` |
| LabelNames.LabelNameAt | internal/exporter/exporter.go:117 | each character of a label name is the original upper-cased where it starts a word and kept otherwise, with `_` turned into a space |
| LabelNames.LabelNameHasNoUnderscore | internal/exporter/exporter.go:117 | label names have the original's length and contain no `_` |
| LabelNames.LabelNameFile | internal/exporter/exporter.go:117 | `file` becomes `File` |
| LabelNames.LabelNameFreeSpace | internal/exporter/exporter.go:117 | `free_space` becomes `Free space` |
| LabelNames.LabelNameCollision | internal/exporter/exporter.go:117 | `free_space` and `Free_space` give the same label, so their gauges overwrite each other |
| ScrapeCycle.Stale | internal/exporter/exporter.go:103 | a report is stale when its time plus the threshold is before now; used by `Exporter.Exporter.CountStatuses` and `CycleProperties.CreditTotal` |
| ScrapeCycle.CountNode | internal/exporter/exporter.go:92-111 | the tally increments of one node; `CycleProperties.CountNodeAddsCredits` states them |
| ScrapeCycle.Tally | internal/exporter/exporter.go:77-111 | the status tally of a node list, node by node; `CycleProperties.TallyCountsCredits` states it counts all nodes' credits |
| ScrapeCycle.NodeWrites | internal/exporter/exporter.go:84-119 | the gauge writes of one node, in order; `CycleProperties.NodeWriteIff` states which they are |
| ScrapeCycle.CycleWrites | internal/exporter/exporter.go:101-118 | the gauge writes of the node loop, node after node; `CycleProperties.CycleWriteIff` states which they are |
| ScrapeCycle.Flush | internal/exporter/exporter.go:122-124 | the status gauges set from a tally, one per visited key; `CycleProperties.FlushAdd` and `CycleProperties.StatusGaugesAfterCycle` state them |
| ScrapeCycle.CycleOutcome | internal/exporter/exporter.go:77-124 | the gauges after one iteration, or `None` when it panics; `Exporter.Exporter.RunCycle` is proved to compute it, `CycleProperties.CyclePanicsIff` states when it panics and `CycleProperties.StatusGaugesAfterCycle` what it leaves |
| ScrapeCycle.ScrapeOutcome | internal/exporter/exporter.go:67-127 | the gauges after a sequence of iterations, stopping at a bad threshold or a panic; `Exporter.Exporter.Scrape` is proved to compute it and `CycleProperties.ScrapeAppend` states how iterations compose |
| ScrapeCycle.Deactivated | internal/exporter/exporter.go:85-90 | the `deactivated` label is `"false"` exactly when the node's deactivation marker is empty |
| ScrapeCycle.MetricWrites | internal/exporter/exporter.go:115-118 | one write per fetched record, in fetch order, to `report_<category>` with the derived name label |
| ScrapeCycle.StatusSeriesInjective | internal/exporter/exporter.go:122-123 | distinct statuses give distinct status series |
| CycleProperties.CountNodeAddsCredits | internal/exporter/exporter.go:92-111 | a node's increments add exactly its status credits to the tally |
| CycleProperties.TallyCountsCredits | internal/exporter/exporter.go:77-111 | the tally counts the multiset of all nodes' status credits |
| CycleProperties.CreditTotal | internal/exporter/exporter.go:92-111 | there is one credit per never-reported node, one per parsed node and one more per stale node |
| CycleProperties.NeverReportedNode | internal/exporter/exporter.go:92-95 | a node without a timestamp sets no gauge and adds exactly one `unreported` |
| CycleProperties.UnparsableNode | internal/exporter/exporter.go:96-100 | a node whose timestamp does not parse leaves the whole cycle's outcome as if it were absent |
| CycleProperties.NodeWriteIff | internal/exporter/exporter.go:92-119 | a node writes exactly its timestamp gauge and one gauge per fetched record, and only when its timestamp parsed |
| CycleProperties.CycleWriteIff | internal/exporter/exporter.go:84-120 | a cycle writes exactly the writes of its nodes |
| CycleProperties.NoStatusWrites | internal/exporter/exporter.go:84-120 | the node loop never writes to the status collection |
| CycleProperties.StatusSeriesAccepted | internal/exporter/exporter.go:123 | every status gauge fits the status collection |
| CycleProperties.ReportSeriesAccepted | internal/exporter/exporter.go:101 | every timestamp gauge fits the `report` collection |
| CycleProperties.MetricWriteAccepted | internal/exporter/exporter.go:116-117 | a report-metric gauge fits a collection exactly when its category is known |
| CycleProperties.KnownCategoriesAccepted | internal/exporter/exporter.go:84-120 | without a record of unknown category, no write of the node loop panics |
| CycleProperties.UnknownCategoryRefused | internal/exporter/exporter.go:116-117 | a fetched record of unknown category for a parsed node makes the node loop panic |
| CycleProperties.CyclePanicsIff | internal/exporter/exporter.go:77-124 | with the six collections, an iteration panics exactly when some parsed node has a record of unknown category |
| CycleProperties.StatusGaugesAfterCycle | internal/exporter/exporter.go:77-124 | after an iteration, a status seen in it holds its count; any other status gauge keeps its earlier presence and value (no reset to zero) |
| CycleProperties.TimestampGaugeAfterCycle | internal/exporter/exporter.go:101 | a parsed node's `report` gauge holds its Unix time unless a later node writes the same series |
| CycleProperties.TimestampWrittenOnlyByItsNode | internal/exporter/exporter.go:101 | a node's timestamp series is written only by parsed nodes with the same environment, host and deactivation flag |
| CycleProperties.LastRecordWins | internal/exporter/exporter.go:115-118 | of records that map to the same series, the last one fetched sets the gauge |
| CycleProperties.CycleIdempotent | internal/exporter/exporter.go:77-124 | repeating an iteration on the same inputs changes nothing |
| CycleProperties.CycleKeepsAccepted | internal/exporter/exporter.go:77-124 | an iteration that does not panic leaves only series that fit their collections |
| CycleProperties.ScrapeAppend | internal/exporter/exporter.go:76-127 | iterations compose: running `a` then `b` is running `a + b`, and a panic ends the loop |
| CycleProperties.ScrapeRepeat | internal/exporter/exporter.go:76-127 | an iteration that sees exactly what the previous one saw leaves the outcome unchanged |
| CycleScenario.NodeAWrites | internal/exporter/exporter.go:96-118 | a node reported at `2024-01-01T00:00:00Z` with one `resources` metric `file` writes its timestamp 1704067200 and `report_resources{name="File"}` |
| CycleScenario.ScenarioTally | internal/exporter/exporter.go:92-111 | a fresh node with status `changed` and a never-reported node tally one `changed` and one `unreported` |
| CycleScenario.TwoNodeScenario | internal/exporter/exporter.go:77-124 | a two-node cycle (A reported with one `file` metric, B never reported) leaves exactly the timestamp gauge of A, its `File` gauge, and the counts 1 for `changed` and 1 for `unreported`; B has no `report` gauge |
| CycleScenario.NodesFetchFailure | internal/exporter/exporter.go:79-83 | a cycle whose node list could not be fetched (nil) changes no gauge |
| Exporter.Exporter.SetReportMetrics | internal/exporter/exporter.go:113-118 | the record loop panics exactly when a record's collection refuses it; otherwise the gauges gain the record writes, with the last one winning |
| Exporter.Exporter.CountStatuses | internal/exporter/exporter.go:103-111 | one `unreported` when the report plus the threshold is before now, then one for the node's status or `unreported` |
| Exporter.Exporter.ScrapeReport | internal/exporter/exporter.go:101-119 | for a parsed node, the gauges gain exactly its timestamp and record writes and the tally its credits; panics exactly when one of those writes is refused |
| Exporter.Exporter.ScrapeNode | internal/exporter/exporter.go:84-119 | one node's loop body computes its part of the cycle, including the empty and unparsable timestamp cases |
| Exporter.Exporter.ScrapeNodes | internal/exporter/exporter.go:77-120 | the node loop yields the tally of all nodes and overlays all their writes in order, or panics exactly when one is refused |
| Exporter.Exporter.FlushStatuses | internal/exporter/exporter.go:122-124 | the status loop sets one gauge per tally key to its count, whatever order the keys are visited in |
| Exporter.Exporter.RunCycle | internal/exporter/exporter.go:77-124 | one iteration of the loop panics exactly when `CycleOutcome` says so, and otherwise leaves exactly the gauges `CycleOutcome` gives |
| Exporter.Exporter.Scrape | internal/exporter/exporter.go:67-127 | after parsing the threshold, the loop's gauges are `ScrapeOutcome`, and every series held fits its collection |

## Left out

- `Describe`, `Collect` and `prometheus.MustRegister` are not modelled. They hand the collections to the Prometheus client library; the model keeps only the series values a scrape would expose.
- The PuppetDB client is not modelled: its construction, TLS options and `log.Fatalf` on failure. The node list and the report metrics by hash are inputs of each iteration.
- A failed node-list fetch is not modelled as an error. The node list is then nil, so such an iteration is modelled as one with an empty node list.
- The report-metrics fetch is a lookup in an input map. A missing hash gives no records, like the discarded error.
- `time.Now` is not modelled; one instant per iteration is an input (the `ScrapeCycle.Tally` line below says what this leaves out). `time.ParseDuration` is not modelled either; its result is an `Option` of nanoseconds given to `Scrape`.
- `time.Sleep` and the endless loop are not modelled; the loop is modelled as a finite sequence of iterations.
- Logging is not modelled, since it changes no state.
- Concurrency with `Collect` is not modelled.
- ScrapeCycle.Tally: every node of an iteration is judged against one instant, the iteration's `now`. `exporter.go:103` calls `time.Now()` again for each node whose timestamp parsed, after the report-metrics requests of the nodes before it. So the model cannot express an iteration in which an earlier node is fresh and a later node with the same timestamp is already stale. The same holds for `ScrapeCycle.CountNode`, `ScrapeCycle.CycleInput` and `Exporter.Exporter.ScrapeNodes`.
- Exporter.Exporter.RunCycle: after a panic no contract states the gauges. `Scrape` has no `recover`, and a Go panic that is not recovered ends the program. So the nil `*GaugeVec` panic at `exporter.go:116-117` ends the whole exporter process, including the endpoint that serves the metrics, and no later state can be observed.
- Exporter.Exporter.FlushStatuses: Go's randomised map-iteration order is a nondeterministic choice of the next key. The contract holds for every order, but it does not say which order was taken.
- LabelNames.ToTitle: letters outside ASCII are left unchanged. Go maps them through `unicode.ToTitle`, and the Unicode tables are not part of this model.
- Gauge values are modelled as exact reals, not float64. `float64(latestReport.Unix())` and the tally counts are exact for all realistic values.
- The label-value UTF-8 validation of the Prometheus client is not modelled: strings are sequences of characters.
- The package variable `metricMap` is not modelled: it is declared but never read.
- GoTime.Parse: only the one layout the exporter uses is modelled, not `time.Parse` in general.

=== FILE: cycle.dfy ===
/** One scrape cycle as a function of its inputs: the nodes PuppetDB returned, the report
    metrics it returns per report hash, the clock and the unreported threshold. The cycle yields
    the gauge writes for each node, a status tally (status name to number of credits; a stale node earns two), and at the
    end one write per tallied status; `Exporter.RunCycle` is proved to do exactly this. */
module ScrapeCycle {
  import opened Wrappers
  import GoTime
  import opened LabelNames
  import opened Registry

  /** A node as the PuppetDB client returns it, with the fields the cycle reads. */
  datatype Node = Node(
    certname: string,
    deactivated: string,
    reportEnvironment: string,
    reportTimestamp: string,
    latestReportStatus: string,
    latestReportHash: string)

  /** One metric of a report: its category ("resources", "time", ...), its name and its value. */
  datatype ReportMetric = ReportMetric(category: string, name: string, value: real)

  /** What `ReportMetrics(hash)` returns for each hash it answers; a hash that is not a key is a
      fetch that failed, and the cycle discards the error. */
  type Reports = map<string, seq<ReportMetric>>

  const Unreported: string := "unreported"

  function FetchReportMetrics(reports: Reports, hash: string): seq<ReportMetric> {
    if hash in reports then reports[hash] else []
  }

  /** The report metrics the cycle fetches for a node: those of its latest report, or none when
      it has no report hash. */
  function Fetched(node: Node, reports: Reports): seq<ReportMetric> {
    if node.latestReportHash != "" then FetchReportMetrics(reports, node.latestReportHash) else []
  }

  /** The `deactivated` label: "false" exactly when the node carries no deactivation time. */
  function Deactivated(node: Node): (flag: string)
    ensures flag == "false" <==> node.deactivated == ""
    ensures flag == "true" <==> node.deactivated != ""
  {
    if node.deactivated == "" then "false" else "true"
  }

  /** `latestReport.Add(threshold).Before(now)`, with `threshold` and `now` in nanoseconds. */
  predicate Stale(t: GoTime.Time, threshold: int, now: int)
    requires GoTime.ValidTime(t)
  {
    GoTime.UnixNano(t) + threshold < now
  }

  predicate NeverReported(node: Node) {
    node.reportTimestamp == ""
  }

  /** The node has a timestamp and it parses. */
  predicate Parsed(node: Node) {
    node.reportTimestamp != "" && GoTime.Parse(node.reportTimestamp).Some?
  }

  predicate StaleNode(node: Node, threshold: int, now: int) {
    Parsed(node) && Stale(GoTime.Parse(node.reportTimestamp).value, threshold, now)
  }

  // ---------------------------------------------------------------------------------------------
  // Gauge writes

  function ReportSeries(node: Node): Series {
    Series(ReportCollection,
      map["environment" := node.reportEnvironment, "host" := node.certname, "deactivated" := Deactivated(node)])
  }

  function MetricWrite(node: Node, m: ReportMetric): Write {
    Write(Series(CategoryCollection(m.category),
            map["name" := LabelName(m.name), "environment" := node.reportEnvironment, "host" := node.certname]),
          m.value)
  }

  /** One write per report metric, in the order the metrics were fetched. */
  function MetricWrites(node: Node, metrics: seq<ReportMetric>): (writes: seq<Write>)
    ensures |writes| == |metrics|
    ensures forall i :: 0 <= i < |metrics| ==> writes[i] == MetricWrite(node, metrics[i])
  {
    if metrics == [] then []
    else MetricWrites(node, metrics[..|metrics| - 1]) + [MetricWrite(node, metrics[|metrics| - 1])]
  }

  /** The timestamp gauge write of a node whose timestamp parsed: the report series of the node,
      set to the Unix seconds of the timestamp. */
  function TimestampWrite(node: Node): Write
    requires Parsed(node)
  {
    Write(ReportSeries(node), GoTime.Unix(GoTime.Parse(node.reportTimestamp).value) as real)
  }


  /** The writes of a node whose latest report is at `t`: the timestamp gauge, then one write
      per report metric fetched for it. */
  function ReportWrites(node: Node, t: GoTime.Time, reports: Reports): seq<Write>
    requires GoTime.ValidTime(t)
  {
    [Write(ReportSeries(node), GoTime.Unix(t) as real)] + MetricWrites(node, Fetched(node, reports))
  }

  /** The writes one node causes: none without a parseable timestamp. */
  function NodeWrites(node: Node, reports: Reports): seq<Write> {
    if node.reportTimestamp == "" then []
    else match GoTime.Parse(node.reportTimestamp)
      case None => []
      case Some(t) => ReportWrites(node, t, reports)
  }

  /** The concatenation of `f(x)` over `xs`, in order. */
  function FlatMap<T, U>(xs: seq<T>, f: T -> seq<U>): seq<U> {
    if xs == [] then []
    else FlatMap(xs[..|xs| - 1], f) + f(xs[|xs| - 1])
  }

  /** The writes of the loop over `nodes`, node after node. */
  function CycleWrites(nodes: seq<Node>, reports: Reports): seq<Write> {
    FlatMap(nodes, node => NodeWrites(node, reports))
  }

  // ---------------------------------------------------------------------------------------------
  // Status tally

  /** `statuses[status]++` on a Go map, where a missing key reads as 0. */
  function Inc(tally: map<string, int>, status: string): map<string, int> {
    tally[status := (if status in tally then tally[status] else 0) + 1]
  }

  /** The increments for a node whose latest report is at `t`. */
  function CountReport(tally: map<string, int>, node: Node, t: GoTime.Time, threshold: int, now: int): map<string, int>
    requires GoTime.ValidTime(t)
  {
    var afterStale := if Stale(t, threshold, now) then Inc(tally, Unreported) else tally;
    if node.latestReportStatus != "" then Inc(afterStale, node.latestReportStatus)
    else Inc(afterStale, Unreported)
  }

  /** The increments the loop body makes for one node. */
  function CountNode(tally: map<string, int>, node: Node, threshold: int, now: int): map<string, int> {
    if node.reportTimestamp == "" then Inc(tally, Unreported)
    else match GoTime.Parse(node.reportTimestamp)
      case None => tally
      case Some(t) => CountReport(tally, node, t, threshold, now)
  }

  /** The tally after the loop over `nodes`, starting from an empty map. */
  function Tally(nodes: seq<Node>, threshold: int, now: int): map<string, int> {
    if nodes == [] then map[]
    else CountNode(Tally(nodes[..|nodes| - 1], threshold, now), nodes[|nodes| - 1], threshold, now)
  }

  /** The reference for the tally: the status credits a node earns, as a multiset. A node never
      reported earns "unreported"; a node whose timestamp does not parse earns nothing; a parsed
      node earns its own status (or "unreported" when it has none) and one more "unreported"
      when it is stale. */
  function NodeCredits(node: Node, threshold: int, now: int): multiset<string> {
    if NeverReported(node) then multiset{Unreported}
    else if !Parsed(node) then multiset{}
    else
      (if StaleNode(node, threshold, now) then multiset{Unreported} else multiset{})
      + multiset{if node.latestReportStatus != "" then node.latestReportStatus else Unreported}
  }

  function Credits(nodes: seq<Node>, threshold: int, now: int): multiset<string> {
    if nodes == [] then multiset{}
    else Credits(nodes[..|nodes| - 1], threshold, now) + NodeCredits(nodes[|nodes| - 1], threshold, now)
  }

  /** A multiset as a Go count map: only the elements present are keys. */
  function Counts(credits: multiset<string>): map<string, int> {
    map s | s in credits :: credits[s]
  }

  function CountIf(nodes: seq<Node>, p: Node -> bool): nat {
    if nodes == [] then 0
    else CountIf(nodes[..|nodes| - 1], p) + (if p(nodes[|nodes| - 1]) then 1 else 0)
  }

  // ---------------------------------------------------------------------------------------------
  // The flush and the whole cycle

  function StatusSeries(status: string): Series {
    Series(StatusCollection, map["status" := status])
  }

  lemma StatusSeriesInjective()
    ensures forall a: string, b: string :: StatusSeries(a) == StatusSeries(b) ==> a == b
  {
    forall a: string, b: string | StatusSeries(a) == StatusSeries(b)
      ensures a == b
    {
      assert StatusSeries(a).labels["status"] == a;
    }
  }

  /** The status gauges the flush sets for the statuses in `keys` (all of the tally's keys at the
      end of the flush loop). */
  function Flush(tally: map<string, int>, keys: set<string>): Gauges {
    StatusSeriesInjective();
    map s | s in keys && s in tally :: StatusSeries(s) := tally[s] as real
  }

  /** The gauges after one cycle, or `None` when the cycle panics: a write to a collection that
      `e.metrics` does not hold dereferences a nil `*GaugeVec`. */
  function CycleOutcome(metrics: map<string, GaugeOpts>, gauges: Gauges, nodes: seq<Node>, reports: Reports,
                        threshold: int, now: int): Option<Gauges>
  {
    var writes := CycleWrites(nodes, reports);
    var tally := Tally(nodes, threshold, now);
    if AllAccepted(metrics, writes) && (forall s | s in tally :: Accepts(metrics, StatusSeries(s))) then
      Some(gauges + Overlay(writes) + Flush(tally, tally.Keys))
    else None
  }

  // ---------------------------------------------------------------------------------------------
  // The scrape loop

  /** What one iteration of the scrape loop sees: the nodes PuppetDB returned (none when the
      request failed), the report metrics per hash, and the clock in nanoseconds. */
  datatype CycleInput = CycleInput(nodes: seq<Node>, reports: Reports, now: int)

  /** The gauges after the given iterations of `Scrape`, or `None` once one of them panics.
      `threshold` is the parsed unreported duration in nanoseconds, `None` when it did not parse:
      then `Scrape` returns before its loop and nothing is ever set. */
  function ScrapeOutcome(metrics: map<string, GaugeOpts>, gauges: Gauges, threshold: Option<int>,
                         cycles: seq<CycleInput>): Option<Gauges>
    decreases |cycles|
  {
    if threshold.None? || cycles == [] then Some(gauges)
    else
      var c := cycles[0];
      match CycleOutcome(metrics, gauges, c.nodes, c.reports, threshold.value, c.now)
      case None => None
      case Some(next) => ScrapeOutcome(metrics, next, threshold, cycles[1..])
  }
}

=== FILE: cycle_props.dfy ===
/** What one scrape cycle promises, proved about its specification in `ScrapeCycle`. */
module CycleProperties {
  import opened Wrappers
  import GoTime
  import opened LabelNames
  import opened Registry
  import opened ScrapeCycle

  // ---------------------------------------------------------------------------------------------
  // The tally is the count map of the credits

  lemma IncCounts(c: multiset<string>, s: string)
    ensures Inc(Counts(c), s) == Counts(c + multiset{s})
  {
  }

  lemma CountNodeAddsCredits(c: multiset<string>, node: Node, threshold: int, now: int)
    ensures CountNode(Counts(c), node, threshold, now) == Counts(c + NodeCredits(node, threshold, now))
  {
    if node.reportTimestamp == "" {
      IncCounts(c, Unreported);
    } else if GoTime.Parse(node.reportTimestamp).Some? {
      var t := GoTime.Parse(node.reportTimestamp).value;
      var own := if node.latestReportStatus != "" then node.latestReportStatus else Unreported;
      if Stale(t, threshold, now) {
        IncCounts(c, Unreported);
        IncCounts(c + multiset{Unreported}, own);
        assert c + NodeCredits(node, threshold, now) == c + multiset{Unreported} + multiset{own};
      } else {
        IncCounts(c, own);
        assert c + NodeCredits(node, threshold, now) == c + multiset{own};
      }
    } else {
      assert c + NodeCredits(node, threshold, now) == c;
    }
  }

  /** The status map the loop builds holds, for every status, the number of credits earned for
      it, and only the statuses that earned one are keys. */
  lemma {:induction false} TallyCountsCredits(nodes: seq<Node>, threshold: int, now: int)
    ensures Tally(nodes, threshold, now) == Counts(Credits(nodes, threshold, now))
  {
    if nodes != [] {
      TallyCountsCredits(nodes[..|nodes| - 1], threshold, now);
      CountNodeAddsCredits(Credits(nodes[..|nodes| - 1], threshold, now), nodes[|nodes| - 1], threshold, now);
    }
  }

  lemma {:induction false} CreditsAppend(a: seq<Node>, b: seq<Node>, threshold: int, now: int)
    ensures Credits(a + b, threshold, now) == Credits(a, threshold, now) + Credits(b, threshold, now)
    decreases |b|
  {
    if b == [] {
      assert a + b == a;
    } else {
      assert (a + b)[..|a + b| - 1] == a + b[..|b| - 1];
      CreditsAppend(a, b[..|b| - 1], threshold, now);
    }
  }

  lemma {:induction false} FlatMapAppend<T, U>(a: seq<T>, b: seq<T>, f: T -> seq<U>)
    ensures FlatMap(a + b, f) == FlatMap(a, f) + FlatMap(b, f)
    decreases |b|
  {
    if b == [] {
      assert a + b == a;
    } else {
      assert (a + b)[..|a + b| - 1] == a + b[..|b| - 1];
      FlatMapAppend(a, b[..|b| - 1], f);
    }
  }

  /** The tally's total: one credit per never-reported node, one per parsed node and one more per
      stale node; a node whose timestamp does not parse adds nothing. */
  lemma {:induction false} CreditTotal(nodes: seq<Node>, threshold: int, now: int)
    ensures |Credits(nodes, threshold, now)|
            == CountIf(nodes, NeverReported) + CountIf(nodes, Parsed)
               + CountIf(nodes, n => StaleNode(n, threshold, now))
  {
    if nodes != [] {
      CreditTotal(nodes[..|nodes| - 1], threshold, now);
    }
  }

  // ---------------------------------------------------------------------------------------------
  // Nodes without a usable timestamp

  lemma FlatMapInsert<T, U>(a: seq<T>, x: T, b: seq<T>, f: T -> seq<U>)
    ensures FlatMap(a + [x] + b, f) == FlatMap(a, f) + f(x) + FlatMap(b, f)
    ensures f(x) == [] ==> FlatMap(a + [x] + b, f) == FlatMap(a + b, f)
  {
    FlatMapAppend(a + [x], b, f);
    FlatMapAppend(a, [x], f);
    FlatMapAppend(a, b, f);
    assert FlatMap([x], f) == f(x) by {
      assert [x][..0] == [];
    }
  }

  lemma CreditsInsert(a: seq<Node>, node: Node, b: seq<Node>, threshold: int, now: int)
    ensures Credits(a + [node] + b, threshold, now) == Credits(a + b, threshold, now) + NodeCredits(node, threshold, now)
  {
    CreditsAppend(a + [node], b, threshold, now);
    CreditsAppend(a, [node], threshold, now);
    CreditsAppend(a, b, threshold, now);
    assert Credits([node], threshold, now) == NodeCredits(node, threshold, now) by {
      assert [node][..0] == [];
    }
  }

  /** A never-reported node adds exactly 1 to "unreported" and writes no gauge at all. */
  lemma NeverReportedNode(a: seq<Node>, node: Node, b: seq<Node>, reports: Reports, threshold: int, now: int)
    requires NeverReported(node)
    ensures CycleWrites(a + [node] + b, reports) == CycleWrites(a + b, reports)
    ensures Tally(a + [node] + b, threshold, now) == Inc(Tally(a + b, threshold, now), Unreported)
  {
    FlatMapInsert(a, node, b, n => NodeWrites(n, reports));
    CreditsInsert(a, node, b, threshold, now);
    TallyCountsCredits(a + [node] + b, threshold, now);
    TallyCountsCredits(a + b, threshold, now);
    IncCounts(Credits(a + b, threshold, now), Unreported);
  }

  /** A node whose timestamp does not parse leaves the whole cycle as if it were absent: no
      status is counted and no gauge is written for it. */
  lemma UnparsableNode(metrics: map<string, GaugeOpts>, g: Gauges, a: seq<Node>, node: Node, b: seq<Node>,
                       reports: Reports, threshold: int, now: int)
    requires node.reportTimestamp != "" && GoTime.Parse(node.reportTimestamp).None?
    ensures CycleOutcome(metrics, g, a + [node] + b, reports, threshold, now)
            == CycleOutcome(metrics, g, a + b, reports, threshold, now)
  {
    FlatMapInsert(a, node, b, n => NodeWrites(n, reports));
    CreditsInsert(a, node, b, threshold, now);
    assert Credits(a + [node] + b, threshold, now) == Credits(a + b, threshold, now);
    TallyCountsCredits(a + [node] + b, threshold, now);
    TallyCountsCredits(a + b, threshold, now);
  }

  // ---------------------------------------------------------------------------------------------
  // Which writes a node causes

  lemma {:induction false} FlatMapMember<T, U>(xs: seq<T>, f: T -> seq<U>, u: U)
    ensures u in FlatMap(xs, f) <==> exists x :: x in xs && u in f(x)
  {
    if xs != [] {
      var init, last := xs[..|xs| - 1], xs[|xs| - 1];
      FlatMapMember(init, f, u);
      assert xs == init + [last];
      if u in f(last) {
        assert last in xs;
      }
      if x :| x in init && u in f(x) {
        assert x in xs;
      }
    }
  }

  /** A node writes something exactly when its timestamp parses, and then it writes its timestamp
      gauge and one gauge per fetched report metric, and nothing else. */
  lemma NodeWriteIff(node: Node, reports: Reports, w: Write)
    ensures w in NodeWrites(node, reports)
            <==> Parsed(node) && (w == TimestampWrite(node) || exists m :: m in Fetched(node, reports) && w == MetricWrite(node, m))
  {
    if Parsed(node) {
      var fetched := Fetched(node, reports);
      var ms := MetricWrites(node, fetched);
      assert NodeWrites(node, reports) == [TimestampWrite(node)] + ms;
      if m :| m in fetched && w == MetricWrite(node, m) {
        var i :| 0 <= i < |fetched| && fetched[i] == m;
        assert ms[i] == w;
      }
      if w in ms {
        var i :| 0 <= i < |ms| && ms[i] == w;
        assert fetched[i] in fetched;
      }
    }
  }

  lemma CycleWriteIff(nodes: seq<Node>, reports: Reports, w: Write)
    ensures w in CycleWrites(nodes, reports) <==> exists node :: node in nodes && w in NodeWrites(node, reports)
  {
    FlatMapMember(nodes, n => NodeWrites(n, reports), w);
  }

  /** The node loop never writes a status gauge: those are set by the flush alone. */
  lemma NoStatusWrites(nodes: seq<Node>, reports: Reports, w: Write)
    requires w in CycleWrites(nodes, reports)
    ensures w.series.collection != StatusCollection
  {
    CycleWriteIff(nodes, reports, w);
    var node :| node in nodes && w in NodeWrites(node, reports);
    NodeWriteIff(node, reports, w);
    if m :| m in Fetched(node, reports) && w == MetricWrite(node, m) {
      CategoryCollectionKnown("", m.category);
    } else {
      assert ReportCollection != StatusCollection by {
        assert |ReportCollection| != |StatusCollection|;
      }
    }
  }

  // ---------------------------------------------------------------------------------------------
  // When a cycle panics

  lemma StatusSeriesAccepted(namespace: string, status: string)
    ensures Accepts(Collections(namespace), StatusSeries(status))
  {
    CollectionLabels(namespace);
    assert LabelSet(["status"]) == {"status"};
  }

  lemma ReportSeriesAccepted(namespace: string, node: Node)
    ensures Accepts(Collections(namespace), ReportSeries(node))
  {
    CollectionLabels(namespace);
    assert LabelSet(["environment", "host", "deactivated"]) == {"environment", "host", "deactivated"};
  }

  lemma MetricWriteAccepted(namespace: string, node: Node, m: ReportMetric)
    ensures Accepts(Collections(namespace), MetricWrite(node, m).series) <==> m.category in ReportCategories
  {
    CategoryCollectionKnown(namespace, m.category);
    CollectionLabels(namespace);
    assert LabelSet(["name", "environment", "host"]) == {"name", "environment", "host"};
  }

  /** The report metric that makes a cycle panic: one fetched for a node whose timestamp parsed,
      in a category that has no collection. */
  predicate UnknownCategory(nodes: seq<Node>, reports: Reports) {
    exists node, m :: node in nodes && Parsed(node) && m in Fetched(node, reports) && m.category !in ReportCategories
  }

  /** Every write of a cycle without an unknown category fits its collection. */
  lemma KnownCategoriesAccepted(namespace: string, nodes: seq<Node>, reports: Reports)
    requires !UnknownCategory(nodes, reports)
    ensures AllAccepted(Collections(namespace), CycleWrites(nodes, reports))
  {
    forall w | w in CycleWrites(nodes, reports)
      ensures Accepts(Collections(namespace), w.series)
    {
      CycleWriteIff(nodes, reports, w);
      var node :| node in nodes && w in NodeWrites(node, reports);
      NodeWriteIff(node, reports, w);
      if m :| m in Fetched(node, reports) && w == MetricWrite(node, m) {
        MetricWriteAccepted(namespace, node, m);
      } else {
        ReportSeriesAccepted(namespace, node);
      }
    }
  }

  /** A metric in an unknown category is a write of the cycle that no collection accepts. */
  lemma UnknownCategoryRefused(namespace: string, nodes: seq<Node>, reports: Reports)
    requires UnknownCategory(nodes, reports)
    ensures !AllAccepted(Collections(namespace), CycleWrites(nodes, reports))
  {
    var node, m :| node in nodes && Parsed(node) && m in Fetched(node, reports) && m.category !in ReportCategories;
    var w := MetricWrite(node, m);
    NodeWriteIff(node, reports, w);
    CycleWriteIff(nodes, reports, w);
    MetricWriteAccepted(namespace, node, m);
  }

  /** With the collections `initGauges` creates, a cycle panics exactly when some parsed node's
      latest report holds a metric outside the four known categories; timestamps and statuses
      always fit their collections. */
  lemma CyclePanicsIff(namespace: string, g: Gauges, nodes: seq<Node>, reports: Reports, threshold: int, now: int)
    ensures CycleOutcome(Collections(namespace), g, nodes, reports, threshold, now).None?
            <==> UnknownCategory(nodes, reports)
  {
    forall s | s in Tally(nodes, threshold, now)
      ensures Accepts(Collections(namespace), StatusSeries(s))
    {
      StatusSeriesAccepted(namespace, s);
    }
    if UnknownCategory(nodes, reports) {
      UnknownCategoryRefused(namespace, nodes, reports);
    } else {
      KnownCategoriesAccepted(namespace, nodes, reports);
    }
  }

  // ---------------------------------------------------------------------------------------------
  // The gauges after a cycle

  /** After a cycle, the status gauge of every status that earned credits holds the number of
      credits; a status that earned none keeps what the previous cycles left, since the
      collection is never reset. */
  lemma StatusGaugesAfterCycle(metrics: map<string, GaugeOpts>, g: Gauges, nodes: seq<Node>, reports: Reports,
                               threshold: int, now: int, status: string)
    requires CycleOutcome(metrics, g, nodes, reports, threshold, now).Some?
    ensures var r := CycleOutcome(metrics, g, nodes, reports, threshold, now).value;
            var key, credits := StatusSeries(status), Credits(nodes, threshold, now);
            && (status in credits ==> key in r && r[key] == credits[status] as real)
            && (status !in credits ==> (key in r <==> key in g) && (key in g ==> r[key] == g[key]))
  {
    var writes := CycleWrites(nodes, reports);
    var key := StatusSeries(status);
    TallyCountsCredits(nodes, threshold, now);
    OverlayKeys(writes);
    if key in Overlay(writes) {
      var w :| w in writes && w.series == key;
      NoStatusWrites(nodes, reports, w);
    }
    StatusSeriesInjective();
  }

  /** Within one node's writes, the timestamp series is set once, to the report's Unix time:
      metric writes go to other collections. */
  lemma NodeSetsTimestamp(node: Node, reports: Reports)
    requires Parsed(node)
    ensures ReportSeries(node) in Overlay(NodeWrites(node, reports))
    ensures Overlay(NodeWrites(node, reports))[ReportSeries(node)] == TimestampWrite(node).value
  {
    var key := ReportSeries(node);
    var fetched := MetricWrites(node, Fetched(node, reports));
    assert NodeWrites(node, reports) == [TimestampWrite(node)] + fetched;
    OverlayAppend([TimestampWrite(node)], fetched);
    assert Overlay([TimestampWrite(node)]) == map[key := TimestampWrite(node).value] by {
      assert [TimestampWrite(node)][..0] == [];
    }
    OverlayKeys(fetched);
  }

  /** A cycle over `nodes` sets the timestamp series of `node` only if one of them has the same
      timestamp labels. */
  lemma TimestampWrittenOnlyByItsNode(nodes: seq<Node>, node: Node, reports: Reports)
    requires forall n | n in nodes && Parsed(n) :: ReportSeries(n) != ReportSeries(node)
    ensures ReportSeries(node) !in Overlay(CycleWrites(nodes, reports))
  {
    var key := ReportSeries(node);
    OverlayKeys(CycleWrites(nodes, reports));
    if key in Overlay(CycleWrites(nodes, reports)) {
      var w :| w in CycleWrites(nodes, reports) && w.series == key;
      CycleWriteIff(nodes, reports, w);
      var n :| n in nodes && w in NodeWrites(n, reports);
      NodeWriteIff(n, reports, w);
      if m :| m in Fetched(n, reports) && w == MetricWrite(n, m) {
        CategoryCollectionKnown("", m.category);
      }
    }
  }

  /** A parsed node's timestamp gauge holds the Unix seconds of its latest report after the cycle,
      unless a later node with the same labels overwrites it. */
  lemma TimestampGaugeAfterCycle(metrics: map<string, GaugeOpts>, g: Gauges, a: seq<Node>, node: Node, b: seq<Node>,
                                 reports: Reports, threshold: int, now: int)
    requires Parsed(node)
    requires forall n | n in b && Parsed(n) :: ReportSeries(n) != ReportSeries(node)
    requires CycleOutcome(metrics, g, a + [node] + b, reports, threshold, now).Some?
    ensures var r := CycleOutcome(metrics, g, a + [node] + b, reports, threshold, now).value;
            ReportSeries(node) in r && r[ReportSeries(node)] == TimestampWrite(node).value
  {
    var key := ReportSeries(node);
    var before, own, after := CycleWrites(a, reports), NodeWrites(node, reports), CycleWrites(b, reports);
    FlatMapInsert(a, node, b, n => NodeWrites(n, reports));
    assert CycleWrites(a + [node] + b, reports) == before + own + after;
    OverlayAppend(before + own, after);
    OverlayAppend(before, own);
    NodeSetsTimestamp(node, reports);
    TimestampWrittenOnlyByItsNode(b, node, reports);
    var tally := Tally(a + [node] + b, threshold, now);
    assert key !in Flush(tally, tally.Keys) by {
      assert |ReportCollection| != |StatusCollection|;
    }
  }

  /** Running the same cycle twice leaves the gauges as one run does: every series is overwritten
      with the same value. */
  lemma CycleIdempotent(metrics: map<string, GaugeOpts>, g: Gauges, nodes: seq<Node>, reports: Reports,
                        threshold: int, now: int)
    requires CycleOutcome(metrics, g, nodes, reports, threshold, now).Some?
    ensures var r := CycleOutcome(metrics, g, nodes, reports, threshold, now).value;
            CycleOutcome(metrics, r, nodes, reports, threshold, now) == Some(r)
  {
    var tally := Tally(nodes, threshold, now);
    Reapply(g, Overlay(CycleWrites(nodes, reports)), Flush(tally, tally.Keys));
  }

  /** The node loop's step: one more node, its writes and its increments. */
  lemma NodeLoopStep(nodes: seq<Node>, reports: Reports, threshold: int, now: int, i: int)
    requires 0 <= i < |nodes|
    ensures CycleWrites(nodes[..i + 1], reports) == CycleWrites(nodes[..i], reports) + NodeWrites(nodes[i], reports)
    ensures Tally(nodes[..i + 1], threshold, now) == CountNode(Tally(nodes[..i], threshold, now), nodes[i], threshold, now)
  {
    assert nodes[..i + 1][..i] == nodes[..i];
  }

  /** A node's write that its collection refuses is a refused write of the whole cycle. */
  lemma NodeRefused(metrics: map<string, GaugeOpts>, nodes: seq<Node>, reports: Reports, i: int)
    requires 0 <= i < |nodes|
    requires !AllAccepted(metrics, NodeWrites(nodes[i], reports))
    ensures !AllAccepted(metrics, CycleWrites(nodes, reports))
  {
    var w :| w in NodeWrites(nodes[i], reports) && !Accepts(metrics, w.series);
    CycleWriteIff(nodes, reports, w);
  }

  /** The inner loop's step: one more record, one more write. */
  lemma MetricWritesStep(node: Node, records: seq<ReportMetric>, j: int)
    requires 0 <= j < |records|
    ensures MetricWrites(node, records[..j + 1]) == MetricWrites(node, records[..j]) + [MetricWrite(node, records[j])]
  {
    assert records[..j + 1][..j] == records[..j];
  }

  /** Within one node's report metrics, a record is what its gauge holds unless a later record
      of the same node has the same category and label name. */
  lemma LastRecordWins(node: Node, records: seq<ReportMetric>, i: int)
    requires 0 <= i < |records|
    requires forall j :: i < j < |records| ==> MetricWrite(node, records[j]).series != MetricWrite(node, records[i]).series
    ensures MetricWrite(node, records[i]).series in Overlay(MetricWrites(node, records))
    ensures Overlay(MetricWrites(node, records))[MetricWrite(node, records[i]).series] == records[i].value
  {
    OverlayLastWriteWins(MetricWrites(node, records), i);
  }

  /** The flush sets one more status: the status loop's step. */
  lemma FlushAdd(tally: map<string, int>, keys: set<string>, s: string)
    requires s in tally
    ensures Flush(tally, keys + {s}) == Flush(tally, keys)[StatusSeries(s) := tally[s] as real]
  {
    StatusSeriesInjective();
  }

  /** A cycle that completes leaves only series that fit their collection, provided the gauges it
      started from did: the registry never holds a series `With` would refuse. */
  lemma CycleKeepsAccepted(metrics: map<string, GaugeOpts>, g: Gauges, nodes: seq<Node>, reports: Reports,
                           threshold: int, now: int)
    requires GaugesAccepted(metrics, g)
    requires CycleOutcome(metrics, g, nodes, reports, threshold, now).Some?
    ensures GaugesAccepted(metrics, CycleOutcome(metrics, g, nodes, reports, threshold, now).value)
  {
    OverlayKeys(CycleWrites(nodes, reports));
  }

  // ---------------------------------------------------------------------------------------------
  // The scrape loop

  /** The scrape loop's step: iteration `k` runs on what the earlier ones left. */
  lemma ScrapeStep(metrics: map<string, GaugeOpts>, g: Gauges, threshold: int, cycles: seq<CycleInput>, k: int)
    requires 0 <= k < |cycles|
    ensures ScrapeOutcome(metrics, g, Some(threshold), cycles[k..])
            == match CycleOutcome(metrics, g, cycles[k].nodes, cycles[k].reports, threshold, cycles[k].now)
               case None => None
               case Some(next) => ScrapeOutcome(metrics, next, Some(threshold), cycles[k + 1..])
  {
    assert cycles[k..][1..] == cycles[k + 1..];
  }

  /** Iterations compose: running `a` and then `b` is running `a + b`, and a panic ends the loop. */
  lemma {:induction false} ScrapeAppend(metrics: map<string, GaugeOpts>, g: Gauges, threshold: Option<int>,
                                        a: seq<CycleInput>, b: seq<CycleInput>)
    ensures ScrapeOutcome(metrics, g, threshold, a + b)
            == match ScrapeOutcome(metrics, g, threshold, a)
               case None => None
               case Some(mid) => ScrapeOutcome(metrics, mid, threshold, b)
    decreases |a|
  {
    if threshold.Some? && a != [] {
      assert (a + b)[0] == a[0] && (a + b)[1..] == a[1..] + b;
      var c := a[0];
      match CycleOutcome(metrics, g, c.nodes, c.reports, threshold.value, c.now)
      case None =>
      case Some(next) => ScrapeAppend(metrics, next, threshold, a[1..], b);
    } else if threshold.Some? {
      assert a + b == b;
    }
  }

  /** An iteration that sees exactly what the previous one saw changes nothing. */
  lemma ScrapeRepeat(metrics: map<string, GaugeOpts>, g: Gauges, threshold: Option<int>,
                     a: seq<CycleInput>, c: CycleInput, b: seq<CycleInput>)
    ensures ScrapeOutcome(metrics, g, threshold, a + [c, c] + b) == ScrapeOutcome(metrics, g, threshold, a + [c] + b)
  {
    assert a + [c, c] + b == (a + [c]) + ([c] + b);
    ScrapeAppend(metrics, g, threshold, a + [c], [c] + b);
    ScrapeAppend(metrics, g, threshold, a + [c], b);
    match ScrapeOutcome(metrics, g, threshold, a + [c])
    case None =>
    case Some(mid) =>
      if threshold.Some? {
        ScrapeAppend(metrics, g, threshold, a, [c]);
        var prev :| ScrapeOutcome(metrics, g, threshold, a) == Some(prev);
        assert [c][1..] == [];
        assert CycleOutcome(metrics, prev, c.nodes, c.reports, threshold.value, c.now) == Some(mid);
        CycleIdempotent(metrics, prev, c.nodes, c.reports, threshold.value, c.now);
        assert ([c] + b)[0] == c && ([c] + b)[1..] == b;
      }
  }
}

=== FILE: exporter.dfy ===
/** The exporter object: its namespace, the gauge collections `initGauges` creates, and the values
    the registry holds for them. `RunCycle` is the body of the scrape loop and is proved to compute
    `ScrapeCycle.CycleOutcome`; `Scrape` runs it over a sequence of iterations. */
module Exporter {
  import opened Wrappers
  import GoTime
  import opened LabelNames
  import opened Registry
  import opened ScrapeCycle
  import opened CycleProperties

  class Exporter {
    var namespace: string
    /** `e.metrics`: collection name to the options of its `GaugeVec`. */
    var metrics: map<string, GaugeOpts>
    /** The values set so far in the collections of `metrics`. */
    var gauges: Gauges

    /** The collections are the six of `initGauges`, and every series set fits its collection. */
    ghost predicate Valid()
      reads this
    {
      metrics == Collections(namespace) && GaugesAccepted(metrics, gauges)
    }

    /** The exporter part of `NewPuppetDBExporter`: namespace "puppetdb", then `initGauges`. */
    constructor ()
      ensures Valid() && namespace == "puppetdb" && gauges == map[]
    {
      namespace := "puppetdb";
      metrics := map[];
      gauges := map[];
      new;
      InitGauges();
    }

    /** Creates the six collections afresh, one after the other; fresh collections hold no series. */
    method InitGauges()
      modifies this`metrics, this`gauges
      ensures metrics == Collections(namespace)
      ensures gauges == map[]
    {
      var perReport := ["name", "environment", "host"];
      metrics := map[];
      metrics := metrics[StatusCollection :=
        GaugeOpts(namespace, StatusCollection, "Total count of reports status by type", ["status"])];
      metrics := metrics["report_resources" :=
        GaugeOpts("puppet", "report_resources", "Total count of resources per status", perReport)];
      metrics := metrics["report_time" :=
        GaugeOpts("puppet", "report_time", "Total execution time per resource type", perReport)];
      metrics := metrics["report_changes" :=
        GaugeOpts("puppet", "report_changes", "Total count of resources changed", perReport)];
      metrics := metrics["report_events" :=
        GaugeOpts("puppet", "report_events", "Total count of resources per event", perReport)];
      metrics := metrics[ReportCollection :=
        GaugeOpts("puppet", ReportCollection, "Timestamp of latest report", ["environment", "host", "deactivated"])];
      gauges := map[];
    }

    /** The writes of one report's metrics (the inner loop of the scrape loop). `panicked` reports
        a record whose category has no collection; the records before it are set. */
    method SetReportMetrics(node: Node, reportMetrics: seq<ReportMetric>) returns (panicked: bool)
      modifies this`gauges
      ensures panicked == !AllAccepted(metrics, MetricWrites(node, reportMetrics))
      ensures !panicked ==> gauges == old(gauges) + Overlay(MetricWrites(node, reportMetrics))
    {
      var j := 0;
      while j < |reportMetrics|
        invariant 0 <= j <= |reportMetrics|
        invariant AllAccepted(metrics, MetricWrites(node, reportMetrics[..j]))
        invariant gauges == old(gauges) + Overlay(MetricWrites(node, reportMetrics[..j]))
      {
        var reportMetric := reportMetrics[j];
        var write := MetricWrite(node, reportMetric);
        var series := write.series;
        if !Accepts(metrics, series) {
          assert MetricWrites(node, reportMetrics)[j] == write;
          return true;
        }
        var done := MetricWrites(node, reportMetrics[..j]);
        MetricWritesStep(node, reportMetrics, j);
        OverlaySnoc(done, write);
        MergeUpdate(old(gauges), Overlay(done), series, reportMetric.value);
        gauges := gauges[series := reportMetric.value];
        j := j + 1;
      }
      assert reportMetrics[..j] == reportMetrics;
      return false;
    }

    /** The status increments for a node whose timestamp parsed to `latestReport`: one more
        "unreported" when the report is older than the threshold, then one for its own status. */
    static method CountStatuses(node: Node, latestReport: GoTime.Time, threshold: int, now: int,
                                statuses: map<string, int>)
      returns (counted: map<string, int>)
      requires GoTime.ValidTime(latestReport)
      ensures counted == CountReport(statuses, node, latestReport, threshold, now)
    {
      counted := statuses;
      if Stale(latestReport, threshold, now) {
        counted := Inc(counted, Unreported);
      }
      if node.latestReportStatus != "" {
        counted := Inc(counted, node.latestReportStatus);
      } else {
        counted := Inc(counted, Unreported);
      }
    }

    /** The loop body for a node whose timestamp parsed to `latestReport`: its timestamp gauge, its
        status credits, and its report metrics. */
    method ScrapeReport(node: Node, latestReport: GoTime.Time, reports: Reports, threshold: int, now: int,
                        statuses: map<string, int>)
      returns (panicked: bool, counted: map<string, int>)
      requires GoTime.ValidTime(latestReport)
      modifies this`gauges
      ensures panicked == !AllAccepted(metrics, ReportWrites(node, latestReport, reports))
      ensures !panicked ==> gauges == old(gauges) + Overlay(ReportWrites(node, latestReport, reports))
      ensures !panicked ==> counted == CountReport(statuses, node, latestReport, threshold, now)
    {
      var stamp := Write(ReportSeries(node), GoTime.Unix(latestReport) as real);
      var records := if node.latestReportHash != "" then FetchReportMetrics(reports, node.latestReportHash) else [];
      assert ReportWrites(node, latestReport, reports) == [stamp] + MetricWrites(node, records);
      AllAcceptedAppend(metrics, [stamp], MetricWrites(node, records));
      if !Accepts(metrics, stamp.series) {
        return true, statuses;
      }
      var start := gauges;
      gauges := gauges[stamp.series := stamp.value];
      counted := CountStatuses(node, latestReport, threshold, now, statuses);
      panicked := false;
      if node.latestReportHash != "" {
        panicked := SetReportMetrics(node, records);
      } else {
        assert MetricWrites(node, records) == [];
      }
      OverlayCons(start, stamp, MetricWrites(node, records));
    }

    /** The loop body for one node. `statuses` is the tally before the node and `counted` the
        tally after it. */
    method ScrapeNode(node: Node, reports: Reports, threshold: int, now: int, statuses: map<string, int>)
      returns (panicked: bool, counted: map<string, int>)
      modifies this`gauges
      ensures panicked == !AllAccepted(metrics, NodeWrites(node, reports))
      ensures !panicked ==> gauges == old(gauges) + Overlay(NodeWrites(node, reports))
      ensures !panicked ==> counted == CountNode(statuses, node, threshold, now)
    {
      if node.reportTimestamp == "" {
        counted := Inc(statuses, Unreported);
        return false, counted;
      }
      var parsed := GoTime.Parse(node.reportTimestamp);
      if parsed.None? {
        return false, statuses;
      }
      panicked, counted := ScrapeReport(node, parsed.value, reports, threshold, now, statuses);
    }

    /** The status loop: one status gauge per key of the tally. `panicked` reports a status series
        its collection refuses, which the six collections never do. */
    method FlushStatuses(statuses: map<string, int>) returns (panicked: bool)
      modifies this`gauges
      ensures panicked == exists s | s in statuses :: !Accepts(metrics, StatusSeries(s))
      ensures !panicked ==> gauges == old(gauges) + Flush(statuses, statuses.Keys)
    {
      var pending := statuses.Keys;
      while pending != {}
        invariant pending <= statuses.Keys
        invariant forall s | s in statuses.Keys - pending :: Accepts(metrics, StatusSeries(s))
        invariant gauges == old(gauges) + Flush(statuses, statuses.Keys - pending)
        decreases |pending|
      {
        var statusName :| statusName in pending;
        var statusSeries := StatusSeries(statusName);
        if !Accepts(metrics, statusSeries) {
          return true;
        }
        var done := statuses.Keys - pending;
        FlushAdd(statuses, done, statusName);
        MergeUpdate(old(gauges), Flush(statuses, done), statusSeries, statuses[statusName] as real);
        gauges := gauges[statusSeries := statuses[statusName] as real];
        pending := pending - {statusName};
        assert statuses.Keys - pending == done + {statusName};
      }
      assert statuses.Keys - pending == statuses.Keys;
      return false;
    }

    /** The node loop of one iteration: the gauge writes of every node, in order, and the status
        tally. `panicked` reports a write whose collection refuses it. */
    method ScrapeNodes(nodes: seq<Node>, reports: Reports, threshold: int, now: int)
      returns (panicked: bool, statuses: map<string, int>)
      modifies this`gauges
      ensures panicked == !AllAccepted(metrics, CycleWrites(nodes, reports))
      ensures !panicked ==> gauges == old(gauges) + Overlay(CycleWrites(nodes, reports))
      ensures !panicked ==> statuses == Tally(nodes, threshold, now)
    {
      statuses := map[];
      var i := 0;
      while i < |nodes|
        invariant 0 <= i <= |nodes|
        invariant statuses == Tally(nodes[..i], threshold, now)
        invariant AllAccepted(metrics, CycleWrites(nodes[..i], reports))
        invariant gauges == old(gauges) + Overlay(CycleWrites(nodes[..i], reports))
      {
        var node := nodes[i];
        var done, own := CycleWrites(nodes[..i], reports), NodeWrites(node, reports);
        panicked, statuses := ScrapeNode(node, reports, threshold, now, statuses);
        if panicked {
          NodeRefused(metrics, nodes, reports, i);
          return true, statuses;
        }
        NodeLoopStep(nodes, reports, threshold, now, i);
        AllAcceptedAppend(metrics, done, own);
        OverlayAppend(done, own);
        MergeAssociates(old(gauges), Overlay(done), Overlay(own));
        i := i + 1;
      }
      assert nodes[..i] == nodes;
      return false, statuses;
    }

    /** One iteration of the scrape loop: a fresh tally, the node loop, then the status loop.
        `panicked` reports the nil `*GaugeVec` dereference of a report metric whose category has
        no collection; the gauges are then left as they were at that point. Otherwise the gauges
        become exactly what `CycleOutcome` says. */
    method RunCycle(nodes: seq<Node>, reports: Reports, threshold: int, now: int) returns (panicked: bool)
      modifies this`gauges
      ensures panicked == CycleOutcome(metrics, old(gauges), nodes, reports, threshold, now).None?
      ensures !panicked ==> gauges == CycleOutcome(metrics, old(gauges), nodes, reports, threshold, now).value
    {
      var statuses;
      panicked, statuses := ScrapeNodes(nodes, reports, threshold, now);
      if panicked {
        return true;
      }
      panicked := FlushStatuses(statuses);
    }

    /** `Scrape` after its threshold was parsed (`None`: the duration did not parse, and `Scrape`
        logs and returns at once), over the given iterations of its loop. */
    method Scrape(threshold: Option<int>, cycles: seq<CycleInput>) returns (panicked: bool)
      requires Valid()
      modifies this`gauges
      ensures panicked == ScrapeOutcome(metrics, old(gauges), threshold, cycles).None?
      ensures !panicked ==> gauges == ScrapeOutcome(metrics, old(gauges), threshold, cycles).value && Valid()
    {
      if threshold.None? {
        return false;
      }
      var k := 0;
      while k < |cycles|
        invariant 0 <= k <= |cycles|
        invariant Valid()
        invariant ScrapeOutcome(metrics, old(gauges), threshold, cycles) == ScrapeOutcome(metrics, gauges, threshold, cycles[k..])
      {
        var cycle := cycles[k];
        label step:
        ScrapeStep(metrics, gauges, threshold.value, cycles, k);
        panicked := RunCycle(cycle.nodes, cycle.reports, threshold.value, cycle.now);
        if panicked {
          return true;
        }
        CycleKeepsAccepted(metrics, old@step(gauges), cycle.nodes, cycle.reports, threshold.value, cycle.now);
        k := k + 1;
      }
      return false;
    }
  }
}

=== FILE: gotime.dfy ===
/** The part of Go's `time` package the exporter relies on: `time.Parse` with the fixed layout
    "2006-01-02T15:04:05Z" (a literal Z, so the result is UTC) and `Time.Unix`.

    The layout is read chunk by chunk the way Go reads it: "2006" is exactly four digits,
    "01", "02", "04" and "05" are exactly two digits, but "15" is one OR two digits; a
    fractional second ('.' or ',' followed by digits) after the seconds is accepted although the
    layout has none; ranges are checked, and the day last, against the length of the month.
    This is `time.Parse` as of Go 1.20: ',' before a fraction is accepted since Go 1.17, and
    digits past the ninth are ignored since Go 1.20 (earlier releases refuse or misread them). */
module GoTime {
  import opened Wrappers

  /** A civil time in UTC: the calendar fields and the nanoseconds of the fractional second. */
  datatype Time = Time(year: int, month: int, day: int, hour: int, minute: int, second: int, nanosecond: int)

  /** Days before the first of each month in a common year (Go's `daysBefore` table). */
  const DaysBefore: seq<int> := [0, 31, 59, 90, 120, 151, 181, 212, 243, 273, 304, 334, 365]

  predicate IsLeap(year: int) {
    year % 4 == 0 && (year % 100 != 0 || year % 400 == 0)
  }

  /** Go's `daysIn`: the table difference, with 29 for February of a leap year. */
  function DaysIn(month: int, year: int): (n: int)
    requires 1 <= month <= 12
    ensures n == if month == 2 then (if IsLeap(year) then 29 else 28)
                 else if month == 4 || month == 6 || month == 9 || month == 11 then 30
                 else 31
  {
    if month == 2 && IsLeap(year) then 29 else DaysBefore[month] - DaysBefore[month - 1]
  }

  /** The times `Parse` can return: a four-digit year and every field in its range. */
  predicate ValidTime(t: Time) {
    && 0 <= t.year <= 9999
    && 1 <= t.month <= 12
    && 1 <= t.day <= DaysIn(t.month, t.year)
    && 0 <= t.hour < 24
    && 0 <= t.minute < 60
    && 0 <= t.second < 60
    && 0 <= t.nanosecond < 1_000_000_000
  }

  // ---------------------------------------------------------------------------------------------
  // Reading the layout

  predicate IsDigit(c: char) {
    '0' <= c <= '9'
  }

  predicate AllDigits(s: string) {
    forall i :: 0 <= i < |s| ==> IsDigit(s[i])
  }

  function DigitValue(c: char): (d: int)
    requires IsDigit(c)
    ensures 0 <= d <= 9
  {
    c as int - '0' as int
  }

  function Pow10(n: nat): (p: nat)
    ensures p >= 1
  {
    if n == 0 then 1 else 10 * Pow10(n - 1)
  }

  /** The decimal value of a run of digits, most significant first. */
  function DigitsValue(s: string): (n: nat)
    requires AllDigits(s)
    ensures n < Pow10(|s|)
  {
    if s == [] then 0 else DigitsValue(s[..|s| - 1]) * 10 + DigitValue(s[|s| - 1])
  }

  /** The length of the run of digits that starts `s`. */
  function LeadingDigits(s: string): (n: nat)
    ensures n <= |s|
    ensures AllDigits(s[..n])
    ensures n < |s| ==> !IsDigit(s[n])
  {
    if s == [] || !IsDigit(s[0]) then 0
    else
      var k := LeadingDigits(s[1..]);
      assert s[..1 + k] == [s[0]] + s[1..][..k];
      1 + k
  }

  /** The "2006" chunk: exactly four digits. */
  function LongYear(value: string): (r: Option<(int, string)>)
    ensures r.Some? ==> 4 <= |value| && 0 <= r.value.0 < 10000 && r.value.1 == value[4..]
  {
    if |value| < 4 || !AllDigits(value[..4]) then None
    else
      assert Pow10(4) == 10000;
      Some((DigitsValue(value[..4]), value[4..]))
  }

  /** Go's `getnum`: one or two leading digits; `fixed` demands two. */
  function GetNum(value: string, fixed: bool): (r: Option<(int, string)>)
    ensures r.Some? ==> 0 <= r.value.0 < 100 && |r.value.1| < |value|
  {
    if |value| == 0 || !IsDigit(value[0]) then None
    else if |value| == 1 || !IsDigit(value[1]) then
      if fixed then None else Some((DigitValue(value[0]), value[1..]))
    else Some((DigitValue(value[0]) * 10 + DigitValue(value[1]), value[2..]))
  }

  /** A literal character of the layout. */
  function Skip(value: string, c: char): (r: Option<string>)
    ensures r.Some? <==> |value| > 0 && value[0] == c
    ensures r.Some? ==> r.value == value[1..]
  {
    if |value| > 0 && value[0] == c then Some(value[1..]) else None
  }

  lemma ScaledBelowSecond(x: nat, k: nat)
    requires k <= 9 && x < Pow10(k)
    ensures x * Pow10(9 - k) < 1_000_000_000
  {
    Pow10Add(k, 9 - k);
    assert Pow10(9) == 1_000_000_000;
    var q := Pow10(9 - k);
    assert x * q <= (Pow10(k) - 1) * q by {
      assert x <= Pow10(k) - 1;
    }
  }

  lemma {:induction false} Pow10Add(a: nat, b: nat)
    ensures Pow10(a) * Pow10(b) == Pow10(a + b)
  {
    if a > 0 {
      Pow10Add(a - 1, b);
    }
  }

  /** Go's special case for a fractional second the layout does not ask for: '.' or ',' (the
      comma since Go 1.17) and at least one digit; all the digits are consumed and the first nine
      give the nanoseconds (the later ones ignored, since Go 1.20). */
  function Fraction(value: string): (r: (int, string))
    ensures 0 <= r.0 < 1_000_000_000
    ensures |r.1| <= |value|
    ensures !(2 <= |value| && (value[0] == '.' || value[0] == ',') && IsDigit(value[1])) ==> r == (0, value)
  {
    if 2 <= |value| && (value[0] == '.' || value[0] == ',') && IsDigit(value[1]) then
      var n := 1 + LeadingDigits(value[1..]);
      var k := if n - 1 > 9 then 9 else n - 1;
      assert AllDigits(value[1..1 + k]) by {
        assert value[1..1 + k] == value[1..][..n - 1][..k];
      }
      (Nanos(value[1..1 + k]), value[n..])
    else
      (0, value)
  }

  /** The nanoseconds of at most nine fraction digits: "5" is 500000000. */
  function Nanos(digits: string): (n: int)
    requires AllDigits(digits) && |digits| <= 9
    ensures 0 <= n < 1_000_000_000
  {
    ScaledBelowSecond(DigitsValue(digits), |digits|);
    DigitsValue(digits) * Pow10(9 - |digits|)
  }

  /** The part of the layout after the 'T': "15:04:05", an optional fraction, the 'Z' and the
      end of the text. Yields hour, minute, second and nanoseconds, not yet range-checked. */
  function ParseClock(value: string): (r: Option<(int, int, int, int)>)
    ensures r.Some? ==> 0 <= r.value.0 < 100 && 0 <= r.value.1 < 100 && 0 <= r.value.2 < 100
    ensures r.Some? ==> 0 <= r.value.3 < 1_000_000_000
  {
    var hour :- GetNum(value, false);
    var v1 :- Skip(hour.1, ':');
    var minute :- GetNum(v1, true);
    var v2 :- Skip(minute.1, ':');
    var second :- GetNum(v2, true);
    var fraction := Fraction(second.1);
    var rest :- Skip(fraction.1, 'Z');
    if rest != [] then None  // extra text after the layout
    else Some((hour.0, minute.0, second.0, fraction.0))
  }

  /** `time.Parse("2006-01-02T15:04:05Z", value)`; `None` is the error return. */
  function Parse(value: string): (r: Option<Time>)
    ensures r.Some? ==> ValidTime(r.value)
  {
    var year :- LongYear(value);
    var v1 :- Skip(year.1, '-');
    var month :- GetNum(v1, true);
    var v2 :- Skip(month.1, '-');
    var day :- GetNum(v2, true);
    var v3 :- Skip(day.1, 'T');
    var clock :- ParseClock(v3);
    var (hour, minute, second, nanosecond) := clock;
    if !(1 <= month.0 <= 12) || 24 <= hour || 60 <= minute || 60 <= second then None
    else if !(1 <= day.0 <= DaysIn(month.0, year.0)) then None
    else Some(Time(year.0, month.0, day.0, hour, minute, second, nanosecond))
  }

  // ---------------------------------------------------------------------------------------------
  // Seconds since the Unix epoch

  function YearLength(year: int): int {
    if IsLeap(year) then 366 else 365
  }

  /** Days from 1 January of year 0 to 1 January of `year` in the proleptic Gregorian calendar,
      in closed form. */
  function DaysBeforeYear(year: nat): int {
    365 * year + (year + 3) / 4 - (year + 99) / 100 + (year + 399) / 400
  }

  /** The same count by its definition: the lengths of years 0 .. year-1 added one by one. */
  function DaysOfYears(year: nat): int {
    if year == 0 then 0 else DaysOfYears(year - 1) + YearLength(year - 1)
  }

  /** Zero-based day of the year (Go adds `daysBefore[month-1]` and one more after February of a
      leap year). */
  function DayOfYear(t: Time): int
    requires 1 <= t.month <= 12
  {
    DaysBefore[t.month - 1] + (if IsLeap(t.year) && t.month > 2 then 1 else 0) + t.day - 1
  }

  /** `Time.Unix`: whole seconds since 1970-01-01T00:00:00Z; the nanoseconds are dropped. */
  function Unix(t: Time): int
    requires ValidTime(t)
  {
    (DaysBeforeYear(t.year) - DaysBeforeYear(1970) + DayOfYear(t)) * 86400
      + t.hour * 3600 + t.minute * 60 + t.second
  }

  /** The instant at nanosecond precision, as `Add` and `Before` compare it. */
  function UnixNano(t: Time): int
    requires ValidTime(t)
  {
    Unix(t) * 1_000_000_000 + t.nanosecond
  }

  /** Each of the three rounded-up quotients of `DaysBeforeYear` grows by one exactly past a
      multiple of its divisor. */
  lemma QuarterStep(year: nat)
    ensures (year + 4) / 4 - (year + 3) / 4 == if year % 4 == 0 then 1 else 0
  {
  }

  lemma CenturyStep(year: nat)
    ensures (year + 100) / 100 - (year + 99) / 100 == if year % 100 == 0 then 1 else 0
  {
  }

  lemma QuadCenturyStep(year: nat)
    ensures (year + 400) / 400 - (year + 399) / 400 == if year % 400 == 0 then 1 else 0
  {
  }

  /** A multiple of 400 is a multiple of 100, and a multiple of 100 a multiple of 4. */
  lemma LeapDivisors(year: nat)
    ensures year % 400 == 0 ==> year % 100 == 0
    ensures year % 100 == 0 ==> year % 4 == 0
  {
    if year % 400 == 0 {
      assert year == (year / 400) * 4 * 100;
    }
    if year % 100 == 0 {
      assert year == (year / 100) * 25 * 4;
    }
  }

  lemma DaysBeforeYearStep(year: nat)
    ensures DaysBeforeYear(year + 1) == DaysBeforeYear(year) + YearLength(year)
  {
    QuarterStep(year);
    CenturyStep(year);
    QuadCenturyStep(year);
    LeapDivisors(year);
  }

  /** The closed form counts exactly the days of the years before `year`. */
  lemma {:induction false} DaysBeforeYearCountsYears(year: nat)
    ensures DaysBeforeYear(year) == DaysOfYears(year)
  {
    if year > 0 {
      DaysBeforeYearCountsYears(year - 1);
      DaysBeforeYearStep(year - 1);
    }
  }

  lemma UnixEpoch()
    ensures Unix(Time(1970, 1, 1, 0, 0, 0, 0)) == 0
  {
    var t := Time(1970, 1, 1, 0, 0, 0, 0);
    assert DayOfYear(t) == 0;
  }

  /** The first second of 2024. */
  lemma UnixNewYear2024()
    ensures Unix(Time(2024, 1, 1, 0, 0, 0, 0)) == 1704067200
  {
    var t := Time(2024, 1, 1, 0, 0, 0, 0);
    assert DaysBeforeYear(1970) == 719528;
    assert DaysBeforeYear(2024) == 739251;
    assert DayOfYear(t) == 0;
    assert Unix(t) == (739251 - 719528) * 86400;
  }

  // ---------------------------------------------------------------------------------------------
  // Order: the conversion keeps timestamps in calendar order, so distinct timestamps (to the
  // second) give distinct Unix seconds.

  /** `a` is an earlier second than `b`, comparing fields from the year down. */
  predicate Earlier(a: Time, b: Time) {
    || a.year < b.year
    || (a.year == b.year && a.month < b.month)
    || (a.year == b.year && a.month == b.month && a.day < b.day)
    || (a.year == b.year && a.month == b.month && a.day == b.day && a.hour < b.hour)
    || (a.year == b.year && a.month == b.month && a.day == b.day && a.hour == b.hour && a.minute < b.minute)
    || (a.year == b.year && a.month == b.month && a.day == b.day && a.hour == b.hour && a.minute == b.minute
        && a.second < b.second)
  }

  lemma DayOfYearBounds(t: Time)
    requires ValidTime(t)
    ensures 0 <= DayOfYear(t) < YearLength(t.year)
  {
    var m := t.month;
    assert DaysBefore[m - 1] + DaysIn(m, t.year) <= DaysBefore[m] + (if IsLeap(t.year) && m >= 2 then 1 else 0);
  }

  lemma DayOfYearMonthOrder(a: Time, b: Time)
    requires ValidTime(a) && ValidTime(b)
    requires a.year == b.year && a.month < b.month
    ensures DayOfYear(a) < DayOfYear(b)
  {
    var m := a.month;
    assert DaysBefore[m - 1] + DaysIn(m, a.year) <= DaysBefore[m] + (if IsLeap(a.year) && m >= 2 then 1 else 0);
    assert DaysBefore[m] <= DaysBefore[b.month - 1];
  }

  lemma {:induction false} DaysBeforeYearGrows(a: nat, b: nat)
    requires a < b
    ensures DaysBeforeYear(a) + YearLength(a) <= DaysBeforeYear(b)
    decreases b
  {
    DaysBeforeYearStep(b - 1);
    if a < b - 1 {
      DaysBeforeYearGrows(a, b - 1);
    }
  }

  lemma EarlierIsSmaller(a: Time, b: Time)
    requires ValidTime(a) && ValidTime(b) && Earlier(a, b)
    ensures Unix(a) < Unix(b)
  {
    var da := DaysBeforeYear(a.year) + DayOfYear(a);
    var db := DaysBeforeYear(b.year) + DayOfYear(b);
    DayOfYearBounds(a);
    DayOfYearBounds(b);
    if a.year < b.year {
      DaysBeforeYearGrows(a.year, b.year);
      assert da < db;
    } else if a.month < b.month {
      DayOfYearMonthOrder(a, b);
      assert da < db;
    }
  }

  /** Unix seconds order timestamps exactly as the calendar does. */
  lemma UnixOrder(a: Time, b: Time)
    requires ValidTime(a) && ValidTime(b)
    ensures Unix(a) < Unix(b) <==> Earlier(a, b)
    ensures Unix(a) == Unix(b) <==> a.(nanosecond := 0) == b.(nanosecond := 0)
  {
    if Earlier(a, b) {
      EarlierIsSmaller(a, b);
    } else if Earlier(b, a) {
      EarlierIsSmaller(b, a);
    }
  }

  // ---------------------------------------------------------------------------------------------
  // Formatting with the same layout: every valid time has a text `Parse` reads back.

  function DigitChar(d: int): (c: char)
    requires 0 <= d <= 9
    ensures IsDigit(c) && DigitValue(c) == d
  {
    ('0' as int + d) as char
  }

  function Pad2(n: int): (s: string)
    requires 0 <= n < 100
    ensures |s| == 2 && AllDigits(s)
  {
    [DigitChar(n / 10), DigitChar(n % 10)]
  }

  function Pad4(n: int): (s: string)
    requires 0 <= n < 10000
    ensures |s| == 4 && AllDigits(s)
  {
    Pad2(n / 100) + Pad2(n % 100)
  }

  /** `t.Format("2006-01-02T15:04:05Z")`, which writes every field at its full width. */
  function Format(t: Time): string
    requires ValidTime(t)
  {
    Pad4(t.year) + ("-" + (Pad2(t.month) + ("-" + (Pad2(t.day) + ("T" + FormatClock(t.hour, t.minute, t.second))))))
  }

  /** The "15:04:05Z" part of the layout. */
  function FormatClock(hour: int, minute: int, second: int): string
    requires 0 <= hour < 24 && 0 <= minute < 60 && 0 <= second < 60
  {
    Pad2(hour) + (":" + (Pad2(minute) + (":" + (Pad2(second) + "Z"))))
  }

  lemma Pad4Value(n: int)
    requires 0 <= n < 10000
    ensures DigitsValue(Pad4(n)) == n
  {
    var s := Pad4(n);
    var hi, lo := n / 100, n % 100;
    assert s == [DigitChar(hi / 10), DigitChar(hi % 10), DigitChar(lo / 10), DigitChar(lo % 10)];
    assert s[..3][..2][..1][..0] == [];
    assert s[..3][..2] == s[..2] && s[..2][..1] == s[..1] && s[..4] == s;
    assert DigitsValue(s[..1]) == hi / 10;
    assert DigitsValue(s[..2]) == hi;
    assert DigitsValue(s[..3]) == hi * 10 + lo / 10;
  }

  lemma GetNumPad2(n: int, rest: string, fixed: bool)
    requires 0 <= n < 100
    ensures GetNum(Pad2(n) + rest, fixed) == Some((n, rest))
  {
    assert (Pad2(n) + rest)[2..] == rest;
  }

  /** Round trip: what `Format` writes, `Parse` reads back as the same time (to the second). */
  lemma ParseClockFormat(hour: int, minute: int, second: int)
    requires 0 <= hour < 24 && 0 <= minute < 60 && 0 <= second < 60
    ensures ParseClock(FormatClock(hour, minute, second)) == Some((hour, minute, second, 0))
  {
    GetNumPad2(hour, ":" + (Pad2(minute) + (":" + (Pad2(second) + "Z"))), false);
    GetNumPad2(minute, ":" + (Pad2(second) + "Z"), true);
    GetNumPad2(second, "Z", true);
    assert Fraction("Z") == (0, "Z");
  }

  /** Round trip: what `Format` writes, `Parse` reads back as the same time (to the second). */
  lemma ParseFormat(t: Time)
    requires ValidTime(t)
    ensures Parse(Format(t)) == Some(t.(nanosecond := 0))
  {
    var clock := "T" + FormatClock(t.hour, t.minute, t.second);
    var r2 := "-" + (Pad2(t.month) + ("-" + (Pad2(t.day) + clock)));
    var s := Format(t);
    assert s[..4] == Pad4(t.year) && s[4..] == r2;
    Pad4Value(t.year);
    assert LongYear(s) == Some((t.year, r2));
    assert Skip(r2, '-') == Some(Pad2(t.month) + ("-" + (Pad2(t.day) + clock)));
    GetNumPad2(t.month, "-" + (Pad2(t.day) + clock), true);
    assert Skip("-" + (Pad2(t.day) + clock), '-') == Some(Pad2(t.day) + clock);
    GetNumPad2(t.day, clock, true);
    assert Skip(clock, 'T') == Some(FormatClock(t.hour, t.minute, t.second));
    ParseClockFormat(t.hour, t.minute, t.second);
  }

  // ---------------------------------------------------------------------------------------------
  // What the layout accepts beyond its own width

  /** Go reads the "15" chunk with a non-fixed `getnum`: a one-digit hour is accepted. */
  lemma ParseClockOneDigitHour(c: char, minute: int, second: int)
    requires IsDigit(c) && 0 <= minute < 60 && 0 <= second < 60
    ensures ParseClock([c] + (":" + (Pad2(minute) + (":" + (Pad2(second) + "Z")))))
            == Some((DigitValue(c), minute, second, 0))
  {
    GetNumPad2(minute, ":" + (Pad2(second) + "Z"), true);
    GetNumPad2(second, "Z", true);
    assert Fraction("Z") == (0, "Z");
  }

  /** A fractional second of any length is consumed; its first nine digits are the nanoseconds. */
  lemma FractionDigits(digits: string)
    requires 1 <= |digits| && AllDigits(digits)
    ensures var k := if |digits| > 9 then 9 else |digits|;
            Fraction("." + digits + "Z") == (DigitsValue(digits[..k]) * Pow10(9 - k), "Z")
  {
    var f := "." + digits + "Z";
    var n := LeadingDigits(f[1..]);
    assert f[1..] == digits + "Z";
    assert f[1..][|digits|] == 'Z';
    assert forall i :: 0 <= i < |digits| ==> f[1..][i] == digits[i];
    var k := if |digits| > 9 then 9 else |digits|;
    assert f[1..1 + k] == digits[..k];
    assert f[1 + n..] == "Z";
  }

  /** A clock with a fractional second parses, keeping the second and adding nanoseconds. */
  lemma ParseClockFractionalSecond(hour: int, minute: int, second: int, digits: string)
    requires 0 <= hour < 24 && 0 <= minute < 60 && 0 <= second < 60
    requires 1 <= |digits| && AllDigits(digits)
    ensures var k := if |digits| > 9 then 9 else |digits|;
            ParseClock(Pad2(hour) + (":" + (Pad2(minute) + (":" + (Pad2(second) + ("." + digits + "Z"))))))
            == Some((hour, minute, second, DigitsValue(digits[..k]) * Pow10(9 - k)))
  {
    var f := "." + digits + "Z";
    GetNumPad2(hour, ":" + (Pad2(minute) + (":" + (Pad2(second) + f))), false);
    GetNumPad2(minute, ":" + (Pad2(second) + f), true);
    GetNumPad2(second, f, true);
    FractionDigits(digits);
  }

  lemma FormatNewYear2024()
    ensures Format(Time(2024, 1, 1, 0, 0, 0, 0)) == "2024-01-01T00:00:00Z"
  {
    assert Pad4(2024) == "2024";
    assert Pad2(1) == "01" && Pad2(0) == "00";
    assert FormatClock(0, 0, 0) == "00:00:00Z";
  }

  /** "2024-01-01T00:00:00Z" is 1704067200 seconds after the epoch. */
  lemma ParseNewYear2024()
    ensures Parse("2024-01-01T00:00:00Z") == Some(Time(2024, 1, 1, 0, 0, 0, 0))
    ensures Unix(Time(2024, 1, 1, 0, 0, 0, 0)) == 1704067200
  {
    ParseFormat(Time(2024, 1, 1, 0, 0, 0, 0));
    FormatNewYear2024();
    UnixNewYear2024();
  }

  // ---------------------------------------------------------------------------------------------
  // What an accepted timestamp says: every field is the value of the digits at its place in the
  // text, so text that is malformed or out of range is refused.

  /** `getnum` consumes one digit, or two when a second digit follows (which `fixed` demands),
      and returns their value. */
  lemma GetNumReads(value: string, fixed: bool)
    requires GetNum(value, fixed).Some?
    ensures var k := if 2 <= |value| && IsDigit(value[1]) then 2 else 1;
            && k <= |value| && (fixed ==> k == 2)
            && AllDigits(value[..k])
            && GetNum(value, fixed).value == (DigitsValue(value[..k]), value[k..])
  {
    assert value[..1][..0] == [];
    if 2 <= |value| && IsDigit(value[1]) {
      assert value[..2][..1] == value[..1];
    }
  }

  /** An accepted clock reads hour, ':', two minute digits, ':', two second digits, an optional
      fraction and 'Z', and each field is the value of its digits. */
  lemma ParseClockReads(value: string)
    requires ParseClock(value).Some?
    ensures var h := if 2 <= |value| && IsDigit(value[1]) then 2 else 1;
            && h + 7 <= |value|
            && AllDigits(value[..h]) && value[h] == ':'
            && AllDigits(value[h + 1..h + 3]) && value[h + 3] == ':'
            && AllDigits(value[h + 4..h + 6])
            && Fraction(value[h + 6..]).1 == "Z"
            && ParseClock(value).value
               == (DigitsValue(value[..h]), DigitsValue(value[h + 1..h + 3]), DigitsValue(value[h + 4..h + 6]),
                   Fraction(value[h + 6..]).0)
  {
    var h := if 2 <= |value| && IsDigit(value[1]) then 2 else 1;
    GetNumReads(value, false);
    var v1 := value[h + 1..];
    assert GetNum(v1, true).Some?;
    GetNumReads(v1, true);
    assert v1[..2] == value[h + 1..h + 3] && v1[2..] == value[h + 3..];
    var v2 := value[h + 4..];
    assert GetNum(v2, true).Some?;
    GetNumReads(v2, true);
    assert v2[..2] == value[h + 4..h + 6] && v2[2..] == value[h + 6..];
  }

  /** An accepted timestamp reads four year digits, '-', two month digits, '-', two day digits,
      'T' and an accepted clock, and the time is the value of those digits. */
  lemma ParseReads(value: string)
    requires Parse(value).Some?
    ensures 11 <= |value| && value[4] == '-' && value[7] == '-' && value[10] == 'T'
    ensures AllDigits(value[..4]) && AllDigits(value[5..7]) && AllDigits(value[8..10])
    ensures var t := Parse(value).value;
            && t.year == DigitsValue(value[..4])
            && t.month == DigitsValue(value[5..7])
            && t.day == DigitsValue(value[8..10])
            && ParseClock(value[11..]) == Some((t.hour, t.minute, t.second, t.nanosecond))
  {
    var v1 := value[5..];
    assert GetNum(v1, true).Some?;
    GetNumReads(v1, true);
    assert v1[..2] == value[5..7] && v1[2..] == value[7..];
    var v2 := value[8..];
    assert GetNum(v2, true).Some?;
    GetNumReads(v2, true);
    assert v2[..2] == value[8..10] && v2[2..] == value[10..];
  }

  /** Only a date with its separators and in range is accepted: month 1 to 12 and a day that
      the month has. */
  lemma ParseChecksDate(value: string)
    ensures Parse(value).Some? ==>
              && 11 <= |value| && value[4] == '-' && value[7] == '-' && value[10] == 'T'
              && AllDigits(value[..4]) && AllDigits(value[5..7]) && AllDigits(value[8..10])
              && 1 <= DigitsValue(value[5..7]) <= 12
              && 1 <= DigitsValue(value[8..10]) <= DaysIn(DigitsValue(value[5..7]), DigitsValue(value[..4]))
  {
    if Parse(value).Some? {
      ParseReads(value);
    }
  }

  /** Only a clock in range is accepted: hour below 24, minute and second below 60. */
  lemma ParseChecksClock(value: string)
    ensures Parse(value).Some? ==>
              && 11 <= |value| && ParseClock(value[11..]).Some?
              && ParseClock(value[11..]).value.0 < 24
              && ParseClock(value[11..]).value.1 < 60
              && ParseClock(value[11..]).value.2 < 60
  {
    if Parse(value).Some? {
      ParseReads(value);
    }
  }

  /** A day past the end of its month is refused. */
  lemma ParseRejectsDayPastMonth(value: string)
    requires 11 <= |value| && AllDigits(value[..4]) && AllDigits(value[5..7]) && AllDigits(value[8..10])
    requires 1 <= DigitsValue(value[5..7]) <= 12
    requires DigitsValue(value[8..10]) > DaysIn(DigitsValue(value[5..7]), DigitsValue(value[..4]))
    ensures Parse(value).None?
  {
    ParseChecksDate(value);
  }

  /** 2023 is not a leap year: "2023-02-29T00:00:00Z" is refused. */
  lemma ParseRejectsFebruary29In2023(value: string)
    requires value == "2023-02-29T00:00:00Z"
    ensures Parse(value).None?
  {
    assert value[..4] == "2023" && value[5..7] == "02" && value[8..10] == "29";
    assert DigitsValue("2023") == 2023 by {
      assert "2023"[..3] == "202" && "202"[..2] == "20" && "20"[..1] == "2" && "2"[..0] == [];
    }
    assert DigitsValue("02") == 2 && DigitsValue("29") == 29 by {
      assert "02"[..1] == "0" && "29"[..1] == "2" && "0"[..0] == [] && "2"[..0] == [];
    }
    ParseRejectsDayPastMonth(value);
  }

  /** There is no month 13: "2024-13-01T00:00:00Z" is refused. */
  lemma ParseRejectsMonth13(value: string)
    requires value == "2024-13-01T00:00:00Z"
    ensures Parse(value).None?
  {
    ParseChecksDate(value);
    assert value[5..7] == "13";
    assert DigitsValue("13") == 13 by {
      assert "13"[..1] == "1" && "1"[..0] == [];
    }
  }

  /** An hour of 24 or more is refused. */
  lemma ParseRejectsHourPast23(value: string)
    requires 13 <= |value| && AllDigits(value[11..13]) && DigitsValue(value[11..13]) >= 24
    ensures Parse(value).None?
  {
    ParseChecksClock(value);
    var clock := value[11..];
    if ParseClock(clock).Some? {
      assert clock[..2] == value[11..13];
      ParseClockReads(clock);
    }
  }

  /** There is no hour 24: "2024-01-01T24:00:00Z" is refused. */
  lemma ParseRejectsHour24(value: string)
    requires value == "2024-01-01T24:00:00Z"
    ensures Parse(value).None?
  {
    assert value[11..13] == "24";
    assert DigitsValue("24") == 24 by {
      assert "24"[..1] == "2" && "2"[..0] == [];
    }
    ParseRejectsHourPast23(value);
  }

  /** A space instead of the 'T' is refused. */
  lemma ParseRejectsSpaceSeparator(value: string)
    requires value == "2024-01-01 00:00:00Z"
    ensures Parse(value).None?
  {
    ParseChecksDate(value);
    assert value[10] == ' ';
  }
}

=== FILE: labels.dfy ===
/** How a report-metric name becomes the value of the `name` label:
    `strings.ReplaceAll(strings.Title(name), "_", " ")`. Title-casing runs FIRST, and Go's
    `strings.Title` does not treat '_' as a word boundary, so "free_space" becomes "Free_space"
    and then "Free space". */
module LabelNames {

  /** `unicode.IsSpace`: the ASCII and Latin-1 spaces and the Unicode White_Space property. */
  predicate IsSpace(c: char) {
    var n := c as int;
    || (0x09 <= n <= 0x0D) || n == 0x20 || n == 0x85 || n == 0xA0 || n == 0x1680
    || (0x2000 <= n <= 0x200A) || n == 0x2028 || n == 0x2029 || n == 0x202F || n == 0x205F
    || n == 0x3000
  }

  /** `strings.isSeparator`: an ASCII character other than a letter, a digit or '_', or a
      non-ASCII space (a space is never a letter or a digit, which Go checks first). */
  predicate IsSeparator(c: char) {
    if c as int <= 0x7F then !('0' <= c <= '9' || 'a' <= c <= 'z' || 'A' <= c <= 'Z' || c == '_')
    else IsSpace(c)
  }

  /** `unicode.ToTitle` on ASCII: title case is upper case. Other characters are left as they are
      (the Unicode case tables are not part of this model). */
  function ToTitle(c: char): char {
    if 'a' <= c <= 'z' then (c as int - 32) as char else c
  }

  /** `strings.Title` continued after the character `prev`: a character is title-cased exactly
      when the one before it is a separator. */
  function TitleAfter(prev: char, s: string): (r: string)
    ensures |r| == |s|
    decreases |s|
  {
    if s == [] then []
    else [if IsSeparator(prev) then ToTitle(s[0]) else s[0]] + TitleAfter(s[0], s[1..])
  }

  /** `strings.Title`: it starts as if after a space. */
  function Title(s: string): string {
    TitleAfter(' ', s)
  }

  /** `strings.ReplaceAll` with one-character old and new strings: the text is scanned from the
      left, each occurrence of `from` is replaced and the text between is copied. */
  function ReplaceAllChar(s: string, from: char, to: char): (r: string)
    ensures |r| == |s|
    ensures forall i :: 0 <= i < |s| ==> r[i] == if s[i] == from then to else s[i]
    decreases |s|
  {
    if s == [] then []
    else [if s[0] == from then to else s[0]] + ReplaceAllChar(s[1..], from, to)
  }

  /** The label value a report-metric name is exported under. */
  function LabelName(name: string): string {
    ReplaceAllChar(Title(name), '_', ' ')
  }

  /** Character `i` of `s` begins a word for `strings.Title`. */
  predicate StartsWord(s: string, i: int)
    requires 0 <= i < |s|
  {
    i == 0 || IsSeparator(s[i - 1])
  }

  lemma {:induction false} TitleAfterAt(prev: char, s: string, i: int)
    requires 0 <= i < |s|
    ensures TitleAfter(prev, s)[i]
            == if (if i == 0 then IsSeparator(prev) else IsSeparator(s[i - 1])) then ToTitle(s[i]) else s[i]
    decreases |s|
  {
    if i > 0 {
      TitleAfterAt(s[0], s[1..], i - 1);
    }
  }

  /** What `LabelName` does to each character: '_' becomes ' ', the first character of each word
      is title-cased, every other character is kept. A '_' itself never begins a new word. */
  lemma LabelNameAt(name: string, i: int)
    requires 0 <= i < |name|
    ensures |LabelName(name)| == |name|
    ensures LabelName(name)[i]
            == if name[i] == '_' then ' ' else if StartsWord(name, i) then ToTitle(name[i]) else name[i]
  {
    TitleAfterAt(' ', name, i);
  }

  /** The label never contains '_' and has as many characters as the name. */
  lemma LabelNameHasNoUnderscore(name: string)
    ensures |LabelName(name)| == |name|
    ensures '_' !in LabelName(name)
  {
    forall i | 0 <= i < |name|
      ensures LabelName(name)[i] != '_'
    {
      LabelNameAt(name, i);
    }
  }

  /** A one-word name is capitalised: "file" is exported as "File". */
  lemma LabelNameFile()
    ensures LabelName("file") == "File"
  {
    assert TitleAfter('l', "e") == "e";
    assert TitleAfter('i', "le") == "le";
    assert TitleAfter('f', "ile") == "ile";
    assert TitleAfter(' ', "file") == "File";
  }

  /** The word after an underscore keeps its case: "free_space" is exported as "Free space", not "Free Space". */
  lemma LabelNameFreeSpace(name: string)
    requires name == "free_space"
    ensures LabelName(name) == "Free space"
  {
    LabelNameHasNoUnderscore(name);
    forall i | 0 <= i < |name|
      ensures LabelName(name)[i] == "Free space"[i]
    {
      LabelNameAt(name, i);
    }
  }

  /** Names that differ only in the case of a word's first letter share one label, so their
      gauges overwrite each other. */
  lemma LabelNameCollision(lower: string, name: string)
    requires lower == "free_space" && name == "Free_space"
    ensures LabelName(lower) == LabelName(name)
  {
    LabelNameFreeSpace(lower);
    LabelNameHasNoUnderscore(name);
    forall i | 0 <= i < |name|
      ensures LabelName(name)[i] == "Free space"[i]
    {
      LabelNameAt(name, i);
    }
  }
}

=== FILE: registry.dfy ===
/** The Prometheus side of the exporter, seen abstractly: the fixed set of gauge collections
    that `initGauges` creates, each with its label names, and the current value of every series.
    A series is one collection together with one assignment of its labels; `With(labels).Set(v)`
    overwrites the value of that series. */
module Registry {

  /** `prometheus.Labels`: label name to label value. */
  type Labels = map<string, string>

  datatype Series = Series(collection: string, labels: Labels)

  /** Every series that has been set, with its value (a gauge holds a float64; the values here
      are finite, so they are modelled as reals). */
  type Gauges = map<Series, real>

  /** One `With(labels).Set(value)` call. */
  datatype Write = Write(series: Series, value: real)

  /** What `prometheus.NewGaugeVec` is given: the options and the label names. */
  datatype GaugeOpts = GaugeOpts(namespace: string, name: string, help: string, labelNames: seq<string>)

  const StatusCollection: string := "node_report_status_count"
  const ReportCollection: string := "report"

  /** The report-metric categories that have a collection of their own. */
  const ReportCategories: set<string> := {"resources", "time", "changes", "events"}

  /** The collection a report metric of `category` is written to (`fmt.Sprintf("report_%s", ...)`). */
  function CategoryCollection(category: string): string {
    "report_" + category
  }

  /** The six collections of `e.metrics`, keyed as the scrape loop looks them up. The status
      collection takes the exporter's namespace; the others the namespace "puppet". */
  function Collections(namespace: string): (m: map<string, GaugeOpts>)
    ensures m.Keys == {StatusCollection, ReportCollection} + set c | c in ReportCategories :: CategoryCollection(c)
  {
    var perReport := ["name", "environment", "host"];
    assert CategoryCollection("resources") == "report_resources" && CategoryCollection("time") == "report_time";
    assert CategoryCollection("changes") == "report_changes" && CategoryCollection("events") == "report_events";
    assert (set c | c in ReportCategories :: CategoryCollection(c))
        == {"report_resources", "report_time", "report_changes", "report_events"};
    map[
      StatusCollection := GaugeOpts(namespace, StatusCollection, "Total count of reports status by type", ["status"]),
      "report_resources" := GaugeOpts("puppet", "report_resources", "Total count of resources per status", perReport),
      "report_time" := GaugeOpts("puppet", "report_time", "Total execution time per resource type", perReport),
      "report_changes" := GaugeOpts("puppet", "report_changes", "Total count of resources changed", perReport),
      "report_events" := GaugeOpts("puppet", "report_events", "Total count of resources per event", perReport),
      ReportCollection := GaugeOpts("puppet", ReportCollection, "Timestamp of latest report", ["environment", "host", "deactivated"])
    ]
  }

  /** Each collection is registered under its own name; only the status collection takes the
      exporter's namespace. */
  lemma CollectionNames(namespace: string)
    ensures forall k | k in Collections(namespace) :: Collections(namespace)[k].name == k
    ensures Collections(namespace)[StatusCollection].namespace == namespace
    ensures forall k | k in Collections(namespace) && k != StatusCollection :: Collections(namespace)[k].namespace == "puppet"
  {
  }

  /** The label names of each collection: "status" for the status counts; environment, host and
      deactivated for the report timestamps; name, environment and host for the four report-metric
      collections. */
  lemma CollectionLabels(namespace: string)
    ensures Collections(namespace)[StatusCollection].labelNames == ["status"]
    ensures Collections(namespace)[ReportCollection].labelNames == ["environment", "host", "deactivated"]
    ensures forall c | c in ReportCategories ::
              Collections(namespace)[CategoryCollection(c)].labelNames == ["name", "environment", "host"]
  {
    assert CategoryCollection("resources") == "report_resources" && CategoryCollection("time") == "report_time";
    assert CategoryCollection("changes") == "report_changes" && CategoryCollection("events") == "report_events";
  }

  function LabelSet(names: seq<string>): set<string> {
    set n | n in names
  }

  /** `e.metrics[s.collection].With(s.labels)` succeeds: the collection exists (a missing one is a
      nil `*GaugeVec`) and the labels are exactly its label names (otherwise `With` panics). */
  predicate Accepts(metrics: map<string, GaugeOpts>, s: Series) {
    s.collection in metrics && s.labels.Keys == LabelSet(metrics[s.collection].labelNames)
  }

  predicate AllAccepted(metrics: map<string, GaugeOpts>, writes: seq<Write>) {
    forall w | w in writes :: Accepts(metrics, w.series)
  }

  lemma AllAcceptedAppend(metrics: map<string, GaugeOpts>, a: seq<Write>, b: seq<Write>)
    ensures AllAccepted(metrics, a + b) <==> AllAccepted(metrics, a) && AllAccepted(metrics, b)
  {
  }

  /** Every series the registry holds fits its collection. */
  predicate GaugesAccepted(metrics: map<string, GaugeOpts>, gauges: Gauges) {
    forall s | s in gauges :: Accepts(metrics, s)
  }

  /** The series a sequence of writes sets, each to the value of the LAST write to it. */
  function Overlay(writes: seq<Write>): Gauges {
    if writes == [] then map[]
    else
      var last := writes[|writes| - 1];
      Overlay(writes[..|writes| - 1])[last.series := last.value]
  }

  /** One more write sets one more series. */
  lemma OverlaySnoc(writes: seq<Write>, w: Write)
    ensures Overlay(writes + [w]) == Overlay(writes)[w.series := w.value]
  {
    assert (writes + [w])[..|writes|] == writes;
  }

  /** Exactly the series written are set. */
  lemma {:induction false} OverlayKeys(writes: seq<Write>)
    ensures Overlay(writes).Keys == set w | w in writes :: w.series
  {
    if writes != [] {
      var init := writes[..|writes| - 1];
      OverlayKeys(init);
      assert writes == init + [writes[|writes| - 1]];
    }
  }

  /** Last write wins: a series holds the value of the last write to it. */
  lemma {:induction false} OverlayLastWriteWins(writes: seq<Write>, i: int)
    requires 0 <= i < |writes|
    requires forall j :: i < j < |writes| ==> writes[j].series != writes[i].series
    ensures writes[i].series in Overlay(writes)
    ensures Overlay(writes)[writes[i].series] == writes[i].value
  {
    if i < |writes| - 1 {
      OverlayLastWriteWins(writes[..|writes| - 1], i);
    }
  }

  /** Writes applied on top of earlier writes: the later ones win. */
  lemma {:induction false} OverlayAppend(a: seq<Write>, b: seq<Write>)
    ensures Overlay(a + b) == Overlay(a) + Overlay(b)
    decreases |b|
  {
    if b == [] {
      assert a + b == a;
    } else {
      var last := b[|b| - 1];
      assert (a + b)[..|a + b| - 1] == a + b[..|b| - 1];
      OverlayAppend(a, b[..|b| - 1]);
    }
  }

  /** Setting the same series again with the same values changes nothing: gauges are overwritten,
      never accumulated. */
  lemma Reapply(g: Gauges, a: Gauges, b: Gauges)
    ensures g + a + b + a + b == g + a + b
  {
  }

  /** Setting one more key on top of a merge is merging the updated map. */
  lemma MergeUpdate<K, V>(a: map<K, V>, b: map<K, V>, k: K, v: V)
    ensures (a + b)[k := v] == a + b[k := v]
  {
  }

  lemma MergeAssociates<K, V>(a: map<K, V>, b: map<K, V>, c: map<K, V>)
    ensures a + b + c == a + (b + c)
  {
  }

  lemma MergeSingleton<K, V>(a: map<K, V>, k: K, v: V)
    ensures a + map[k := v] == a[k := v]
  {
  }

  /** Setting one series and then overlaying a run of writes is overlaying the run that starts
      with that write. */
  lemma OverlayCons(g: Gauges, w: Write, rest: seq<Write>)
    ensures g[w.series := w.value] + Overlay(rest) == g + Overlay([w] + rest)
  {
    OverlaySnoc([], w);
    assert [] + [w] == [w];
    OverlayAppend([w], rest);
    MergeSingleton(g, w.series, w.value);
    MergeAssociates(g, Overlay([w]), Overlay(rest));
  }

  /** A report metric can only reach one of the four report-metric collections, and reaches one
      exactly when its category is one of the four; it can never hit the status or the timestamp
      collection. */
  lemma CategoryCollectionKnown(namespace: string, category: string)
    ensures CategoryCollection(category) in Collections(namespace) <==> category in ReportCategories
    ensures CategoryCollection(category) != StatusCollection
    ensures CategoryCollection(category) != ReportCollection
  {
    var c := CategoryCollection(category);
    assert c[0] == 'r' && StatusCollection[0] == 'n';
    assert |c| != |ReportCollection|;
    if c in Collections(namespace) {
      assert c[7..] == category;
    }
  }
}

=== FILE: scenario.dfy ===
/** A two-node example, worked through one scrape cycle: node "A" reported at
    2024-01-01T00:00:00Z with status "changed" and one report metric, node "B" never reported. */
module CycleScenario {
  import opened Wrappers
  import GoTime
  import opened LabelNames
  import opened Registry
  import opened ScrapeCycle
  import opened CycleProperties

  const NodeA: Node := Node("A", "", "production", "2024-01-01T00:00:00Z", "changed", "abc")
  const NodeB: Node := Node("B", "", "production", "", "", "")
  const ReportsAbc: Reports := map["abc" := [ReportMetric("resources", "file", 3.0)]]

  /** One hour, in nanoseconds. */
  const Hour: int := 3_600_000_000_000
  /** The clock of the cycle: the instant of A's report, so A is not stale. */
  const ReportInstant: int := 1_704_067_200_000_000_000

  const TimestampA: Series := Series(ReportCollection, map["environment" := "production", "host" := "A", "deactivated" := "false"])
  const FileA: Series := Series("report_resources", map["name" := "File", "environment" := "production", "host" := "A"])

  /** A "file" metric of category "resources" is written to `report_resources` under the name
      "File". */
  lemma FileMetricWrite(node: Node, m: ReportMetric)
    requires m.category == "resources" && m.name == "file"
    ensures MetricWrite(node, m)
            == Write(Series("report_resources", map["name" := "File", "environment" := node.reportEnvironment, "host" := node.certname]),
                     m.value)
  {
    LabelNameFile();
  }

  /** A's timestamp parses to the first second of 2024. */
  lemma NodeAParses(a: Node)
    requires a == NodeA
    ensures Parsed(a) && GoTime.Parse(a.reportTimestamp) == Some(GoTime.Time(2024, 1, 1, 0, 0, 0, 0))
  {
    GoTime.ParseNewYear2024();
  }

  /** A's writes are its timestamp and its one report metric. */
  lemma NodeAWrites(a: Node, reports: Reports)
    requires a == NodeA && reports == ReportsAbc
    ensures Parsed(a)
    ensures NodeWrites(a, reports) == [Write(TimestampA, 1704067200.0), Write(FileA, 3.0)]
  {
    var t := GoTime.Time(2024, 1, 1, 0, 0, 0, 0);
    NodeAParses(a);
    GoTime.UnixNewYear2024();
    NodeAMetricWrites(a, reports);
    assert ReportSeries(a) == TimestampA;
    assert NodeWrites(a, reports) == ReportWrites(a, t, reports);
  }

  /** A's report has the one metric "file", written as "File". */
  lemma NodeAMetricWrites(a: Node, reports: Reports)
    requires a == NodeA && reports == ReportsAbc
    ensures MetricWrites(a, Fetched(a, reports)) == [Write(FileA, 3.0)]
  {
    var m := ReportMetric("resources", "file", 3.0);
    assert Fetched(a, reports) == [m];
    assert MetricWrites(a, [m]) == [MetricWrite(a, m)];
    FileMetricWrite(a, m);
  }

  /** A is not stale and counts once under its status "changed". */
  lemma NodeACount(a: Node)
    requires a == NodeA
    ensures CountNode(map[], a, Hour, ReportInstant) == map["changed" := 1]
  {
    var t := GoTime.Time(2024, 1, 1, 0, 0, 0, 0);
    NodeAParses(a);
    GoTime.UnixNewYear2024();
    assert !Stale(t, Hour, ReportInstant);
    assert CountNode(map[], a, Hour, ReportInstant) == CountReport(map[], a, t, Hour, ReportInstant);
  }

  /** B writes nothing, so the cycle's writes are A's. */
  lemma ScenarioWrites(nodes: seq<Node>, reports: Reports)
    requires nodes == [NodeA, NodeB] && reports == ReportsAbc
    ensures CycleWrites(nodes, reports) == [Write(TimestampA, 1704067200.0), Write(FileA, 3.0)]
  {
    NodeAWrites(nodes[0], reports);
    FlatMapInsert([], nodes[0], [nodes[1]], n => NodeWrites(n, reports));
    assert [] + [nodes[0]] + [nodes[1]] == nodes;
    assert NodeWrites(nodes[1], reports) == [];
  }

  /** B adds one "unreported" to A's "changed". */
  lemma ScenarioTally(nodes: seq<Node>)
    requires nodes == [NodeA, NodeB]
    ensures Tally(nodes, Hour, ReportInstant) == map["changed" := 1, "unreported" := 1]
  {
    var changed := map["changed" := 1];
    NodeACount(nodes[0]);
    assert nodes[..1] == [nodes[0]] && nodes[..1][..0] == [];
    assert Tally(nodes[..1], Hour, ReportInstant) == changed;
    assert Tally(nodes, Hour, ReportInstant) == CountNode(changed, nodes[1], Hour, ReportInstant);
    assert nodes[1].reportTimestamp == "";
    assert "unreported" !in changed;
  }

  /** The empty map is the unit of map union. */
  lemma MergeEmpty<K, V>(a: map<K, V>)
    ensures map[] + a == a && a + map[] == a
  {
  }

  /** A's timestamp series fits the `report` collection. */
  lemma TimestampAAccepted(metrics: map<string, GaugeOpts>)
    requires metrics == Collections("puppetdb")
    ensures Accepts(metrics, TimestampA)
  {
    CollectionLabels("puppetdb");
  }

  /** A's report-metric series fits the `report_resources` collection. */
  lemma FileAAccepted(metrics: map<string, GaugeOpts>)
    requires metrics == Collections("puppetdb")
    ensures Accepts(metrics, FileA)
  {
    CollectionLabels("puppetdb");
  }

  /** The timestamp and the report metric both fit their collections, and so do the statuses. */
  lemma ScenarioAccepted(nodes: seq<Node>, reports: Reports, metrics: map<string, GaugeOpts>)
    requires nodes == [NodeA, NodeB] && reports == ReportsAbc && metrics == Collections("puppetdb")
    ensures CycleOutcome(metrics, map[], nodes, reports, Hour, ReportInstant).Some?
  {
    ScenarioWrites(nodes, reports);
    ScenarioTally(nodes);
    ScenarioWritesAccepted(metrics);
    ScenarioStatusesAccepted(metrics);
  }

  /** Both writes of the cycle fit their collections. */
  lemma ScenarioWritesAccepted(metrics: map<string, GaugeOpts>)
    requires metrics == Collections("puppetdb")
    ensures AllAccepted(metrics, [Write(TimestampA, 1704067200.0), Write(FileA, 3.0)])
  {
    TimestampAAccepted(metrics);
    FileAAccepted(metrics);
  }

  /** Both statuses of the tally fit the status collection. */
  lemma ScenarioStatusesAccepted(metrics: map<string, GaugeOpts>)
    requires metrics == Collections("puppetdb")
    ensures forall s | s in map["changed" := 1, "unreported" := 1] :: Accepts(metrics, StatusSeries(s))
  {
    StatusSeriesAccepted("puppetdb", "changed");
    StatusSeriesAccepted("puppetdb", "unreported");
  }

  /** The two writes set two series. */
  lemma ScenarioOverlay()
    ensures Overlay([Write(TimestampA, 1704067200.0), Write(FileA, 3.0)])
            == map[][TimestampA := 1704067200.0][FileA := 3.0]
  {
    var stamp, file := Write(TimestampA, 1704067200.0), Write(FileA, 3.0);
    OverlaySnoc([], stamp);
    OverlaySnoc([stamp], file);
    assert [] + [stamp] == [stamp] && [stamp] + [file] == [stamp, file];
  }

  /** The flush sets one gauge per status. */
  lemma ScenarioFlush(tally: map<string, int>)
    requires tally == map["changed" := 1, "unreported" := 1]
    ensures Flush(tally, tally.Keys) == map[][StatusSeries("changed") := 1.0][StatusSeries("unreported") := 1.0]
  {
    assert Flush(tally, {}) == map[];
    FlushAdd(tally, {}, "changed");
    FlushAdd(tally, {"changed"}, "unreported");
    assert {} + {"changed"} == {"changed"} && {"changed"} + {"unreported"} == tally.Keys;
  }

  /** The expected gauges: `report{host="A"}` is 1704067200, `report_resources{name="File"}` is 3,
      and one node each under "changed" and "unreported"; B has no `report` gauge. */
  lemma TwoNodeScenario(nodes: seq<Node>, reports: Reports)
    requires nodes == [NodeA, NodeB] && reports == ReportsAbc
    ensures var r := CycleOutcome(Collections("puppetdb"), map[], nodes, reports, Hour, ReportInstant);
            && r.Some?
            && r.value == map[TimestampA := 1704067200.0, FileA := 3.0,
                              StatusSeries("changed") := 1.0, StatusSeries("unreported") := 1.0]
  {
    var tally := Tally(nodes, Hour, ReportInstant);
    ScenarioAccepted(nodes, reports, Collections("puppetdb"));
    ScenarioWrites(nodes, reports);
    ScenarioTally(nodes);
    ScenarioOverlay();
    ScenarioFlush(tally);
    var overlay: Gauges := map[][TimestampA := 1704067200.0][FileA := 3.0];
    var changed := StatusSeries("changed");
    MergeEmpty(overlay);
    MergeUpdate(overlay, map[], changed, 1.0);
    MergeUpdate(overlay, map[][changed := 1.0], StatusSeries("unreported"), 1.0);
  }

  /** A failed node-list request leaves `nodes` nil: the cycle then sets nothing, and every gauge
      keeps its value. */
  lemma NodesFetchFailure(metrics: map<string, GaugeOpts>, g: Gauges, reports: Reports, threshold: int, now: int)
    ensures CycleOutcome(metrics, g, [], reports, threshold, now) == Some(g)
  {
    assert Overlay(CycleWrites([], reports)) == map[];
    assert Flush(map[], {}) == map[];
    MergeEmpty(g);
  }
}

=== FILE: wrappers.dfy ===
/** The optional-value datatype used for Go's `(value, err)` results whose error the model only
    needs to tell apart from success. Works with `:-`. */
module Wrappers {

  datatype Option<+T> = None | Some(value: T) {

    predicate IsFailure() {
      None?
    }

    function PropagateFailure<U>(): Option<U>
      requires None?
    {
      None
    }

    function Extract(): T
      requires Some?
    {
      value
    }
  }
}
